=== FILE: README.md ===
# CatchAleksa game core in Dafny

CatchAleksa is a JavaFX arcade game. The player walks an avatar around a 1920 x 1080 scene. Obstacles
scroll in from the right on a 7 x 6 grid. Good obstacles (pictures Obstacle7, 8 and 9) are the stolen
packages to collect. Bad ones cost a heart. A fence band scrolls along the bottom edge. A round ends
when the player presses NEXT with every package found. Typing HESOYAM restores the hearts.

This project models the game logic of `FlorinController`, `ObstacleController`, `FenceController`
and the NEXT gate of `GUIController`. Each is a pure function over immutable records. The
scene graph is a sequence of nodes: fences, obstacles and interface widgets. Coordinates are exact
`real`s. Randomness (the cell shuffle, picture draws, natural picture sizes) is a `Dice` parameter.

Modules:

- `Geometry`: scene size and the centre-distance collision rule.
- `Sprites`: fence, obstacle and widget records, the scene, and the filter/count operations on it.
- `Fences`: the fence conveyor (step, wrap, lay a row, clear).
- `Obstacles`: grid layout, spawning over a permutation of the 42 cells, clearing and removal by identity.
- `Player`: avatar movement, walking-frame selection with the frame lock, the all-or-nothing bounds rule, the start zone.
- `Cheat`: the key-release buffer that fires on HESOYAM.
- `Rounds`: the round cap at 3 and the 7/5/3 quota table.
- `Game`: the controller state and one function per event (key press, key release, animation frame, fence tick, obstacle tick, frame-lock expiry, NEXT).
- `Invariant`: an invariant of every state reachable from the start screen, proved preserved by every event.
  It says that the avatar is on screen with walking-frame indices below 2, the round is within 0..3,
  hearts are at most 3, and the cheat buffer holds only code letters and never the whole code. It
  also says that the per-round count is at most the cumulative count, that the cumulative count plus
  the good obstacles on screen is at most the packages needed, and that every obstacle on screen is
  untouched and on its spawn row.

The code is followed where it differs from what one might expect:

- A wrap keeps the counted flags; they are only cleared when the animation starts.
- The cheat sets hearts to 4 and then takes one heart, so it ends at 3.
- From 3 hearts the game ends on the fourth bad hit.
- On key release, the left and right standing pictures are set only while the frame lock is held.
- The movement target uses the raw deltas.
- The NEXT gate compares against the cumulative packages found.
- `FlorinController`'s `restart` and `score` fields are never assigned (the GUI controller keeps its own),
  so game over removes only the packages label; the NEXT button and stage panel stay.
- Work posted with `Platform.runLater` (the hearts picture and the info panels) takes effect at the
  end of the event that posts it.

## Model

| member | source | states |
|---|---|---|
| Geometry.CollidesIffHitBoxesOverlap | CatchAleksa/src/FlorinController.java:389-407 | The strict centre-distance test with thresholds (w1+w2)/4 and (h1+h2)/4 holds exactly when the two half-size hit boxes overlap |
| Geometry.CollidesSymmetric | CatchAleksa/src/FlorinController.java:389-407 | Collision does not depend on which of the two boxes is the player |
| Geometry.HitBox | CatchAleksa/src/FlorinController.java:401-402 | The hit box keeps the sprite's centre and has half its width and height |
| Sprites.Keep | CatchAleksa/src/FlorinController.java:367-384 | Filtering the scene keeps exactly the nodes that pass, never more nodes than before |
| Sprites.KeepIdempotent | CatchAleksa/src/FenceController.java:95-110 | Filtering twice by the same test is filtering once |
| Sprites.CountPointwise | CatchAleksa/src/FenceController.java:32-51 | Scenes that agree position by position on a node kind hold equally many nodes of that kind |
| Sprites.KeepConcat | CatchAleksa/src/FenceController.java:109 | Filtering distributes over concatenation, so the kept nodes keep their order |
| Sprites.CountKeepDrops | CatchAleksa/src/FlorinController.java:456-465 | Removing a node that passes a test lowers that test's count by at least one |
| Sprites.CountUpdate | CatchAleksa/src/FlorinController.java:416-417 | Replacing a node by one of the same kind keeps the count of that kind |
| Sprites.CountZero | CatchAleksa/src/FlorinController.java:367-384 | A count is zero exactly when no node passes the test |
| Sprites.CountAll | CatchAleksa/src/FenceController.java:95-111 | A count equals the length exactly when every node passes the test |
| Sprites.KeepOverwrite | CatchAleksa/src/FlorinController.java:456-465 | Overwriting a dropped node with another dropped node leaves the filtered scene unchanged |
| Sprites.CountFour | CatchAleksa/src/FlorinController.java:277-326 | The count over four concatenated parts is the sum of their counts |
| Fences.StepFence | CatchAleksa/src/FenceController.java:40-46 | A fence moves left by the speed, or to x = W once its right edge is past 0; its y and width stay |
| Fences.MoveFences | CatchAleksa/src/FenceController.java:32-51 | Every fence steps or wraps, every other node stays where it is, and nothing is added or removed |
| Fences.StepFenceStaysOnBand | CatchAleksa/src/FenceController.java:44-46 | A fence not right of the fresh row's last fence (x = 1926) is, after a step, neither fully off-left nor right of that point |
| Fences.MoveFencesKeepsBand | CatchAleksa/src/FenceController.java:32-51 | The conveyor keeps the number of fences and puts every fence not right of x = 1926 on the band |
| Fences.AddLowerRowOfFences | CatchAleksa/src/FenceController.java:61-86 | Exactly 16 fences are appended after the existing nodes, fence i at x = -144 + 138 i and y = 985 |
| Fences.RowIsEdgeToEdge | CatchAleksa/src/FenceController.java:76 | Consecutive fences of the row are exactly one fence width apart |
| Fences.RowIsCentred | CatchAleksa/src/FenceController.java:68 | The row overhangs the left edge exactly as much as the right edge |
| Fences.FreshRowEntersBand | CatchAleksa/src/FenceController.java:40-46 | A fresh row starts on or left of the band's right end and is on the band after one step; its leftmost fence starts off-left and wraps to x = W at once |
| Fences.RowFollowsScene | CatchAleksa/src/FenceController.java:61-86 | Laying a row only appends fences: the old scene is a prefix and every other node kind keeps its count |
| Fences.ClearFences | CatchAleksa/src/FenceController.java:95-111 | No fence remains, every other node remains, and the length drops by the number of fences |
| Fences.ClearFencesCount | CatchAleksa/src/FenceController.java:95-111 | Clearing keeps exactly the non-fence nodes: the removed count equals the fence count |
| Fences.ClearFencesPreservesOrder | CatchAleksa/src/FenceController.java:109 | Clearing a concatenation clears each part, so the other nodes keep their order |
| Fences.ClearFencesIdempotent | CatchAleksa/src/FenceController.java:95-111 | Clearing twice is clearing once |
| Obstacles.CellLayout | CatchAleksa/src/ObstacleController.java:77-78 | Cell p sits at x = 1920 + 290 (p mod 7) and y = 880 - 160 (p div 7): off-screen right, on one of six rows from 80 to 880 |
| Obstacles.CellLayoutInjective | CatchAleksa/src/ObstacleController.java:101-102 | Different cells of the grid get different positions |
| Obstacles.CellOrderCoversGrid | CatchAleksa/src/ObstacleController.java:68-76 | A shuffle of the 42 cells visits every cell exactly once |
| Obstacles.Spawn | CatchAleksa/src/ObstacleController.java:76-111 | The k-th obstacle sits at the k-th shuffled cell with its home row equal to its spawn row and both flags cleared; it is good exactly when fewer than the quota were spawned before it; bad ones are 190 x 100, good ones keep their natural size |
| Obstacles.GoodPrefixCount | CatchAleksa/src/ObstacleController.java:81-89 | When the good obstacles are exactly the first m, the scene holds min(m, length) of them |
| Obstacles.SpawnRound | CatchAleksa/src/ObstacleController.java:39-112 | A spawn yields 42 untouched obstacles off-screen right, one in every grid cell, exactly the quota of them good |
| Obstacles.SpawnRoundIds | CatchAleksa/src/ObstacleController.java:76-111 | The k-th obstacle of a round gets identity id + k, so no two share one |
| Obstacles.ClearObstacles | CatchAleksa/src/FlorinController.java:367-384 | No obstacle remains and every other node remains |
| Obstacles.RemoveObstacle | CatchAleksa/src/FlorinController.java:456-465 | The obstacle with that identity leaves the scene and every other node stays |
| Obstacles.FindObstacle | CatchAleksa/src/FlorinController.java:453 | Finds the first scene position holding the obstacle with that identity, or reports that none does |
| Obstacles.FindObstacleFirst | CatchAleksa/src/FlorinController.java:453 | The first position holding the identity is the one found, so the lookup is determined by the scene |
| Obstacles.RemoveOverwrite | CatchAleksa/src/FlorinController.java:426-440 | Replacing the obstacle holding an identity by another obstacle with that identity (such as its counted copy) before removing the identity does not change the result |
| Obstacles.RemoveBeforeUi | CatchAleksa/src/FlorinController.java:432-441 | Removing an identity commutes with appending an interface node |
| Obstacles.FilledStaysFilled | CatchAleksa/src/ObstacleController.java:76-111 | Appending nodes keeps every grid cell filled |
| Player.MoveTo | CatchAleksa/src/FlorinController.java:583-590 | The avatar is re-centred on the target only if the whole box fits on the screen, otherwise it stays; only the position changes; an on-screen avatar stays on screen |
| Player.MoveToAllOrNothing | CatchAleksa/src/FlorinController.java:587-589 | The move is taken exactly when the target box is on screen, and otherwise nothing moves |
| Player.Heading | CatchAleksa/src/FlorinController.java:550-566 | The walking cycle played is up if dy < 0, else down if dy > 0, else left if dx < 0, else right |
| Player.MoveBy | CatchAleksa/src/FlorinController.java:530-570 | No-op at zero deltas; while locked no frame index changes; otherwise exactly the heading's index advances by one modulo 2 and the lock is taken; indices stay below 2; the avatar moves by the raw deltas exactly when the target fits |
| Player.ReleasePose | CatchAleksa/src/FlorinController.java:207-230 | Releasing up or down always sets the standing picture; left or right set it while the frame lock is held and otherwise leave the avatar exactly as it was |
| Cheat.KeyUp | CatchAleksa/src/FlorinController.java:205-269 | Code letters append, arrows and Escape keep, any other key clears; a full HESOYAM buffer fires and empties; the buffer never rests on HESOYAM |
| Cheat.FiresExactlyOnCompletion | CatchAleksa/src/FlorinController.java:263-269 | The code fires exactly on an M typed after HESOYA |
| Cheat.TypingTheCodeFires | CatchAleksa/src/FlorinController.java:236-269 | Typing HESOYAM on an empty buffer fires once and leaves the buffer empty |
| Cheat.OffTrackNeverFires | CatchAleksa/src/FlorinController.java:263 | Once the buffer is no longer a prefix of the code, further code letters never fire |
| Cheat.DoubledFirstLetterNeverFires | CatchAleksa/src/FlorinController.java:263 | HHESOYAM does not fire: the whole buffer must equal the code |
| Cheat.InterruptionClears | CatchAleksa/src/FlorinController.java:257-259 | An off-sequence key empties the buffer |
| Rounds.Clamp | CatchAleksa/src/FlorinController.java:769-784 | The stored round is never above 3 and is unchanged exactly when it is at most 3 |
| Rounds.ClampIdempotent | CatchAleksa/src/FlorinController.java:769-774 | Reading the round twice gives the same value |
| Rounds.GoodCount | CatchAleksa/src/ObstacleController.java:56-65 | The good-obstacle quota is 7, 5 or 3 for rounds 1, 2 or 3 and 0 otherwise |
| Rounds.QuotaOfClampedRound | CatchAleksa/src/ObstacleController.java:59-65 | Read through the getter, every round from 3 on gets the round-3 quota, and quotas never grow |
| Game.Initial | CatchAleksa/src/FlorinController.java:36-121 | The start screen: the avatar of the given picture size centred on the screen, facing south, unlocked, with all four walking-frame indices 0; three hearts, round 0, all counters zero, no key held, an empty cheat buffer, nothing started, no hint shown, the band stopped, no packages label, and only the intro dialogue in the scene |
| Game.GetCurrentRound | CatchAleksa/src/FlorinController.java:769-774 | The getter returns the round capped at 3 and stores the capped value back |
| Game.SetCurrentRound | CatchAleksa/src/FlorinController.java:780-784 | The setter stores the given round capped at 3 and changes nothing else |
| Game.RemoveLabel | CatchAleksa/src/FlorinController.java:489 | The held packages label leaves the scene and every other node stays |
| Game.UpdateHearts | CatchAleksa/src/FlorinController.java:471-500 | Hearts drop by exactly one; while hearts remain only a hearts picture for the new count is added and nothing else changes; below zero the game is over: the scene holds exactly the game-over dialogue and the old interface nodes other than the held packages label, the band stops, and nothing else changes |
| Game.HeartsAfterBadHits | CatchAleksa/src/FlorinController.java:471-481 | n hits cost exactly n hearts; while hearts remain the old scene is kept as a prefix, exactly n hearts pictures follow it, the k-th showing the count after the k-th hit, and nothing else changes |
| Game.FourthBadHitEndsTheGame | CatchAleksa/src/FlorinController.java:472-483 | From three hearts the first three hits leave the game running and the fourth ends it |
| Game.TickObstacle | CatchAleksa/src/FlorinController.java:414-465 | One obstacle tick: an absent identity changes nothing; a touch after the 2-unit step removes the obstacle, changes only the counters, hearts, band and scene, and, unless the game ends, keeps the remaining scene in order with at most one picture added; otherwise only its own position changes, to the step or to the wrap point, and the next tick finds it at the same place |
| Game.TickAwayStaysFirst | CatchAleksa/src/FlorinController.java:416-447 | An obstacle that moves or wraps without a touch stays the first node holding its identity |
| Game.TickOfAbsentObstacle | CatchAleksa/src/FlorinController.java:456-465 | A removed obstacle never ticks again |
| Game.TickWithoutCollision | CatchAleksa/src/FlorinController.java:414-447 | Without a touch the obstacle moves 2 left, or wraps to (W + 50, its spawn row) once fully off-left, keeping its counted flags; nothing else changes |
| Game.TickGoodHit | CatchAleksa/src/FlorinController.java:420-431 | Touching a good obstacle not yet counted gives exactly the old state with both package counters one higher and that obstacle removed from the scene |
| Game.TouchGoodFrame | CatchAleksa/src/FlorinController.java:420-431 | Touching a good obstacle removes it and raises both package counters by one if it was not yet counted, by zero otherwise; nothing else changes |
| Game.TouchCountedBadFrame | CatchAleksa/src/FlorinController.java:432-441 | Touching a bad obstacle already counted only removes it |
| Game.TouchBadFrame | CatchAleksa/src/FlorinController.java:432-441 | Touching a bad obstacle not yet counted: with a heart left, exactly one more bad touch, one heart less, the obstacle removed and the hearts picture appended; otherwise also the band stopped and the game-over scene |
| Game.TouchSummary | CatchAleksa/src/FlorinController.java:420-441 | Any touch removes the obstacle, changes only counters, hearts, band and scene, and keeps the rest of the scene with at most one picture appended unless the game ends |
| Game.TickBadHit | CatchAleksa/src/FlorinController.java:432-440 | Touching a bad obstacle not yet counted adds one bad touch and costs one heart; with a heart left the state is exactly the old one with the obstacle removed and the new hearts picture appended; otherwise the band stops, the scene is the game-over scene and nothing else changes |
| Game.WrapExample | CatchAleksa/src/FlorinController.java:443-447 | A 190-wide obstacle at x = -189 wraps to x = 1970 on its row |
| Game.SpawnObstacles | CatchAleksa/src/ObstacleController.java:39-112 | The quota comes from the capped round and adds to the packages needed; 42 untouched obstacles are appended, one per grid cell |
| Game.AddInfoPanels | CatchAleksa/src/GUIController.java:85-131 | Appends exactly, in order, the stage panel for the capped round, the packages label under the next free identity (which the state records), the NEXT button and the hearts picture for the current hearts; nothing else changes |
| Game.ClearedScene | CatchAleksa/src/FlorinController.java:282-297 | The scene a round starts from holds no obstacle, no fence and no good obstacle, and holds the hint exactly when this is the first round or the hint was already there |
| Game.PrepareRound | CatchAleksa/src/FlorinController.java:277-298 | The round counter goes up and the avatar is moved to (W/4, H/2) if it fits; the scene is the old one without obstacles and fences, then the hint on the first round only, then the 16 fences of a fresh row at their exact positions, and no fence before them; the band is set running |
| Game.StartNewGame | CatchAleksa/src/FlorinController.java:277-326 | A new round: the capped round, the packages needed raised by its quota, exactly that many good obstacles on screen, all untouched; the avatar moved to (W/4, H/2) if it fits; the packages label under the identity after the 42 new obstacles; band running and hint shown; every other field kept |
| Game.NewRoundKeepsClearedScene | CatchAleksa/src/FlorinController.java:277-326 | A new round's scene starts with the old scene minus its obstacles and fences, in order, followed by the hint on the first round only; exactly the 16 fences, 42 obstacles and 4 panels come after it |
| Game.NewRoundLayout | CatchAleksa/src/FlorinController.java:277-326 | A new round's scene ends with, in order, the 16 fences of a fresh row, 42 fresh obstacles filling every grid cell, and the stage panel, packages label, NEXT button and hearts picture; only interface nodes come before; it holds exactly 16 fences and 42 obstacles |
| Game.SpawnedLayout | CatchAleksa/src/FlorinController.java:299-326 | Obstacles and info panels added after a fresh fence row give the layout of a new round |
| Game.RoundLayout | CatchAleksa/src/FlorinController.java:277-326 | A scene made of interface nodes, a fence row, a full spawn and the four panels holds exactly 16 fences and 42 obstacles |
| Game.PreparedLaysRow | CatchAleksa/src/FlorinController.java:277-298 | After the first half of a new round only interface nodes precede the fresh fence row |
| Game.SpawnsAfter | CatchAleksa/src/ObstacleController.java:39-112 | Spawning keeps the scene as a prefix and appends one fresh obstacle for every grid cell |
| Game.SpawnedIds | CatchAleksa/src/ObstacleController.java:76-111 | The new obstacles take consecutive identities from the state's counter in scene order, all below the advanced counter |
| Game.PanelsAdded | CatchAleksa/src/GUIController.java:85-131 | The four info panels follow the old scene in the controller's order |
| Game.PressNext | CatchAleksa/src/GUIController.java:108-120 | When ready, the state is exactly a new round with the per-round counter reset; otherwise only a reminder is added and nothing else changes |
| Game.GateIgnoresRoundCounter | CatchAleksa/src/GUIController.java:139-144 | The gate compares the packages needed with the cumulative count only |
| Game.KeyDown | CatchAleksa/src/FlorinController.java:169-197 | Each arrow sets its own movement flag and nothing else; SPACE starts a new round exactly when the avatar is on the start zone and the latch is free; other keys change nothing |
| Game.SpaceNeedsStartZone | CatchAleksa/src/FlorinController.java:684-686 | SPACE changes the state exactly when the avatar's corner is right of x = 1550 and strictly between y = 350 and y = 500 and the latch is free |
| Game.SpaceLatchesOnce | CatchAleksa/src/FlorinController.java:187-193 | A second SPACE press never starts another round: pressing SPACE twice is pressing it once |
| Game.EscapeRearmsSpace | CatchAleksa/src/FlorinController.java:231-235 | After Escape, SPACE on the start zone starts a round again |
| Game.Release | CatchAleksa/src/FlorinController.java:205-235 | Each arrow clears its own flag only and sets the standing picture (left and right only while locked); Escape drops the SPACE latch and asks to close, keeping flags and avatar; other keys change nothing here |
| Game.KeyUp | CatchAleksa/src/FlorinController.java:205-270 | The buffer never rests on HESOYAM; without the code firing the state is the release handler's with the cheat tracker's new buffer; when it fires it is the release handler's with hearts at 3, an empty buffer and the hearts picture appended |
| Game.DeltaX | CatchAleksa/src/FlorinController.java:139-148 | The horizontal step is +2 exactly when only right is held, -2 exactly when only left is held, and 0 exactly when both or neither are |
| Game.DeltaY | CatchAleksa/src/FlorinController.java:139-148 | The vertical step is +2 exactly when only down is held, -2 exactly when only up is held, and 0 exactly when both or neither are |
| Game.Frame | CatchAleksa/src/FlorinController.java:136-151 | Only the avatar changes, by the walk MoveBy makes for the held keys' steps; with no key or both keys of each axis held it stands still; it stays on screen with valid frames |
| Game.FenceTick | CatchAleksa/src/FlorinController.java:508-517 | While the band runs the scene is the conveyor step of the old one; non-fence nodes and the fence count stay; a stopped band changes nothing |
| Game.FrameLockExpires | CatchAleksa/src/FlorinController.java:572-581 | The frame-lock timer frees the avatar's lock; position, picture, frames and the rest of the state stay |
| Invariant.InitialIsValid | CatchAleksa/src/FlorinController.java:97-121 | The start screen satisfies the invariant |
| Invariant.NewRoundIsValid | CatchAleksa/src/FlorinController.java:277-326 | Every new round satisfies the invariant |
| Invariant.KeyDownKeepsValid | CatchAleksa/src/FlorinController.java:169-197 | Key presses keep the invariant |
| Invariant.KeyUpKeepsValid | CatchAleksa/src/FlorinController.java:205-270 | Key releases, the cheat included, keep the invariant |
| Invariant.FenceTickKeepsValid | CatchAleksa/src/FenceController.java:32-51 | The fence conveyor keeps the invariant |
| Invariant.ObstacleStepKeepsValid | CatchAleksa/src/FlorinController.java:414-465 | An obstacle tick keeps the invariant: a touched obstacle never stays in the scene and found packages never exceed the packages needed |
| Invariant.NextKeepsValid | CatchAleksa/src/GUIController.java:108-120 | Pressing NEXT keeps the invariant |
| Invariant.StepKeepsValid | CatchAleksa/src/FlorinController.java:122-153 | Every event keeps the invariant |
| Invariant.RunKeepsValid | CatchAleksa/src/FlorinController.java:122-153 | Every state reached by a sequence of events from a valid state is valid |
| Invariant.ReadyMeansAllCollected | CatchAleksa/src/GUIController.java:139-144 | In a valid state the NEXT gate passes only when no good obstacle is left on screen |

## Left out

- The application bootstrap (`Main.java`) and `CloseCatchAleksaEvent.java` carry no game logic; Escape's close request is a flag.
- The idle phone animation (`checkIdleTime`, `phoneAnimation`, `stopPhoneAnimation`) runs on a daemon thread against the wall clock.
- Timeline and AnimationTimer scheduling is not modelled: each tick is one function call and the 200 ms frame-lock timer is the `FrameLockExpires` event.
- The `Math.sqrt` normalisation in `moveCharacterBy` is left out: its results are only compared with zero, and the move uses the raw deltas.
- `Random` and `Collections.shuffle` are parameters (`Dice`); the picture draws and the natural picture sizes come in the same way.
- Picture loading, URL matching, labels and their text, fonts, the background change, the heart and stage pictures' files, and the `Cody` dialogue class are not part of this model; dialogues are nodes holding their lines, and `cody.quit()` is not modelled.
- `lastInteractionTime` only feeds the idle animation.
- Java `double` rounding is not modelled: every coordinate is an exact small rational.
- Game.Initial: the four walking pictures and the standing pictures are taken to share one size, so the avatar box has a single width and height.
- Fences.AddLowerRowOfFences: the fence picture's natural width is taken to be the 138 used by the layout.
- Obstacles.RemoveObstacle: removes every node with the identity, where the scene list removes the first equal node. The two agree when identities are unique. Each round hands out fresh consecutive identities from a counter that only grows (`Game.SpawnedIds`), but the invariant does not carry uniqueness across the whole scene, so this agreement is assumed rather than proved.
- Game.TickObstacle: the wrap relocation of an obstacle already removed in the same tick is not observable and is not modelled.

=== FILE: cheat.dfy ===
/** The cheat-code buffer fed by key releases: it fires when the whole buffer spells HESOYAM. */
module Cheat {

  /** The keys the release handler tells apart; every other key is `OtherKey`. */
  datatype Key = UpKey | DownKey | LeftKey | RightKey | EscapeKey | SpaceKey | Letter(c: char) | OtherKey

  const Code: string := "HESOYAM"

  /** A key the handler appends to the buffer: one of the letters H, E, S, O, Y, A, M. */
  predicate Appends(k: Key) {
    k.Letter? && k.c in Code
  }

  /** A key the handler handles without touching the buffer: the four arrows and Escape. */
  predicate Keeps(k: Key) {
    k == UpKey || k == DownKey || k == LeftKey || k == RightKey || k == EscapeKey
  }

  /** The buffer holds nothing but code letters. */
  predicate OverCodeLetters(buf: string) {
    forall i :: 0 <= i < |buf| ==> buf[i] in Code
  }

  datatype Step = Step(buffer: string, fired: bool)

  /** One key release: record the key, then fire and empty the buffer if it now equals the code exactly. */
  function KeyUp(buf: string, k: Key): (r: Step)
    ensures Appends(k) && !r.fired ==> r.buffer == buf + [k.c]
    ensures Keeps(k) && !r.fired ==> r.buffer == buf
    ensures !Appends(k) && !Keeps(k) ==> r.buffer == [] && !r.fired
    ensures r.fired ==> r.buffer == []
    ensures r.buffer != Code
    ensures OverCodeLetters(buf) ==> OverCodeLetters(r.buffer)
  {
    var recorded := if Appends(k) then buf + [k.c] else if Keeps(k) then buf else [];
    if recorded == Code then Step([], true) else Step(recorded, false)
  }

  /** From any buffer a release can leave behind, the code fires exactly on an M that completes HESOYA. */
  lemma FiresExactlyOnCompletion(buf: string, k: Key)
    requires buf != Code
    ensures KeyUp(buf, k).fired <==> buf == "HESOYA" && k == Letter('M')
  {
    if Appends(k) && buf + [k.c] == Code {
      assert buf == (buf + [k.c])[..|buf|];
      assert k.c == (buf + [k.c])[|buf|];
    }
  }

  datatype Run = Run(buffer: string, fires: nat)

  /** Feeds a sequence of key releases to the buffer and counts how often the code fired. */
  function Feed(buf: string, keys: seq<Key>): (r: Run)
    ensures |keys| > 0 ==> r.buffer != Code
    decreases |keys|
  {
    if keys == [] then Run(buf, 0)
    else
      var step := KeyUp(buf, keys[0]);
      var rest := Feed(step.buffer, keys[1..]);
      Run(rest.buffer, rest.fires + if step.fired then 1 else 0)
  }

  function Letters(s: string): (keys: seq<Key>)
    ensures |keys| == |s| && forall i :: 0 <= i < |s| ==> keys[i] == Letter(s[i])
  {
    seq(|s|, i requires 0 <= i < |s| => Letter(s[i]))
  }

  /** Typing HESOYAM on an empty buffer fires once and leaves the buffer empty. */
  lemma TypingTheCodeFires()
    ensures Feed([], Letters(Code)) == Run([], 1)
  {
    TypingTheRestFires(0);
    assert Code[..0] == [] && Code[0..] == Code;
  }

  /** With the first i letters of the code in the buffer, typing the remaining ones fires exactly once. */
  lemma {:induction false} TypingTheRestFires(i: nat)
    requires i < |Code|
    ensures Feed(Code[..i], Letters(Code[i..])) == Run([], 1)
    decreases |Code| - i
  {
    var keys := Letters(Code[i..]);
    assert keys[0] == Letter(Code[i]);
    assert Code[..i] + [Code[i]] == Code[..i + 1];
    assert keys[1..] == Letters(Code[i + 1..]);
    if i + 1 == |Code| {
      assert Code[..i + 1] == Code;
      assert keys[1..] == [];
    } else {
      assert |Code[..i + 1]| != |Code|;
      TypingTheRestFires(i + 1);
    }
  }

  /**
   * Once the buffer is no longer a prefix of the code, code letters only make it longer and the
   * code never fires; only a key that clears the buffer can bring it back.
   */
  lemma {:induction false} OffTrackNeverFires(buf: string, s: string)
    requires !(buf <= Code)
    requires forall i :: 0 <= i < |s| ==> s[i] in Code
    ensures Feed(buf, Letters(s)) == Run(buf + s, 0)
    decreases |s|
  {
    if s == [] {
      assert buf + s == buf;
    } else {
      var keys := Letters(s);
      var next := buf + [s[0]];
      assert !(next <= Code);
      assert KeyUp(buf, keys[0]) == Step(next, false);
      assert keys[1..] == Letters(s[1..]);
      OffTrackNeverFires(next, s[1..]);
      assert next + s[1..] == buf + s;
    }
  }

  /** The buffer must equal the code as a whole: HHESOYAM does not fire. */
  lemma DoubledFirstLetterNeverFires()
    ensures Feed([], Letters("HHESOYAM")).fires == 0
  {
    var keys := Letters("HHESOYAM");
    assert keys[0] == Letter('H') && keys[1] == Letter('H');
    assert KeyUp([], keys[0]) == Step("H", false);
    assert KeyUp("H", keys[1]) == Step("HH", false);
    assert keys[2..] == Letters("ESOYAM");
    assert !("HH" <= Code);
    OffTrackNeverFires("HH", "ESOYAM");
    assert keys[1..][1..] == keys[2..];
  }

  /** An off-sequence key such as X in H, E, X empties the buffer. */
  lemma InterruptionClears()
    ensures Feed([], Letters("HEX")) == Run([], 0)
  {
    var keys := Letters("HEX");
    assert keys == [Letter('H'), Letter('E'), Letter('X')];
  }
}

=== FILE: fences.dfy ===
/** The fence band: a row of fence tiles along the bottom edge that scrolls left forever. */
module Fences {
  import opened Geometry
  import opened Sprites

  const FenceWidth: real := 138.0
  const FenceHeight: real := 95.0
  const FenceCount: nat := 16

  /** The row is centred: it starts half of its excess width left of the screen. */
  const StartX: real := (W - (FenceCount as real) * FenceWidth) / 2.0
  const StartY: real := H - FenceHeight

  predicate IsFenceNode(n: Node) {
    n.FenceNode?
  }

  predicate NotFence(n: Node) {
    !n.FenceNode?
  }

  /** One conveyor step of one fence: left by `speed`, and back to the right edge once its right edge is past 0. */
  function StepFence(f: Fence, speed: real): (r: Fence)
    ensures r.y == f.y && r.w == f.w
    ensures r.x == W || r.x == f.x - speed
    ensures r.x == W <== f.x - speed + f.w < 0.0
    ensures r.x == f.x - speed <== f.x - speed + f.w >= 0.0
  {
    var newX := f.x - speed;
    if newX + f.w < 0.0 then f.(x := W) else f.(x := newX)
  }

  /** Steps every fence of the scene and leaves every other node where it is. */
  function MoveFences(s: Scene, speed: real): (r: Scene)
    ensures |r| == |s|
    ensures forall i :: 0 <= i < |s| ==> (r[i].FenceNode? <==> s[i].FenceNode?)
    ensures forall i :: 0 <= i < |s| && !s[i].FenceNode? ==> r[i] == s[i]
    ensures forall i :: 0 <= i < |s| && s[i].FenceNode? ==>
              r[i].fence.y == s[i].fence.y && r[i].fence.w == s[i].fence.w &&
              (if s[i].fence.x - speed + s[i].fence.w < 0.0 then r[i].fence.x == W
               else r[i].fence.x == s[i].fence.x - speed)
  {
    seq(|s|, i requires 0 <= i < |s| => if s[i].FenceNode? then FenceNode(StepFence(s[i].fence, speed)) else s[i])
  }

  /** The right end of the band: where the last fence of a fresh row starts. */
  const RowRight: real := StartX + ((FenceCount - 1) as real) * FenceWidth

  /** A fence is on the band when it is not yet fully off-left and not right of the fresh row's last fence. */
  predicate OnBand(f: Fence) {
    -f.w <= f.x <= RowRight
  }

  /** The band is endless: a fence not right of the band's end is on the band after a step at any non-negative speed. */
  lemma StepFenceStaysOnBand(f: Fence, speed: real)
    requires 0.0 <= f.w && 0.0 <= speed && f.x <= RowRight
    ensures OnBand(StepFence(f, speed))
  {
  }

  /** Moving the conveyor neither creates nor destroys fences, and puts every fence on the band. */
  lemma MoveFencesKeepsBand(s: Scene, speed: real)
    requires 0.0 <= speed
    requires forall i :: 0 <= i < |s| && s[i].FenceNode? ==> 0.0 <= s[i].fence.w && s[i].fence.x <= RowRight
    ensures Count(MoveFences(s, speed), IsFenceNode) == Count(s, IsFenceNode)
    ensures forall i :: 0 <= i < |s| && s[i].FenceNode? ==> OnBand(MoveFences(s, speed)[i].fence)
  {
    var r := MoveFences(s, speed);
    CountPointwise(s, r, IsFenceNode);
    forall i | 0 <= i < |s| && s[i].FenceNode?
      ensures OnBand(r[i].fence)
    {
      StepFenceStaysOnBand(s[i].fence, speed);
    }
  }

  /** The x position of fence number i of a freshly spawned row. */
  function RowX(i: nat): real {
    StartX + (i as real) * FenceWidth
  }

  /** Appends the 16 fences of the bottom row, left to right, after the existing nodes. */
  function AddLowerRowOfFences(s: Scene): (r: Scene)
    ensures |r| == |s| + 16
    ensures r[..|s|] == s
    ensures forall i :: |s| <= i < |s| + 16 ==>
              r[i] == FenceNode(Fence(-144.0 + 138.0 * ((i - |s|) as real), 985.0, 138.0))
  {
    s + seq(FenceCount, i requires 0 <= i < FenceCount => FenceNode(Fence(RowX(i), StartY, FenceWidth)))
  }

  /** A fresh row only adds fences after the scene: every other kind of node keeps its count. */
  lemma RowFollowsScene(s: Scene, p: Node -> bool)
    requires forall n :: p(n) ==> !n.FenceNode?
    ensures var r := AddLowerRowOfFences(s);
            && r == s + r[|s|..]
            && Count(r, p) == Count(s, p)
            && (forall n :: n in r ==> n in s || n.FenceNode?)
  {
    var r := AddLowerRowOfFences(s);
    assert r == s + r[|s|..];
    CountConcat(s, r[|s|..], p);
    CountZero(r[|s|..], p);
  }

  /** The fences of a fresh row touch edge to edge: each one starts exactly where the previous one ends. */
  lemma RowIsEdgeToEdge(s: Scene, i: nat)
    requires i + 1 < 16
    ensures AddLowerRowOfFences(s)[|s| + i + 1].fence.x ==
            AddLowerRowOfFences(s)[|s| + i].fence.x + AddLowerRowOfFences(s)[|s| + i].fence.w
  {
  }

  /** A fresh row hangs over both screen edges by the same amount, so it covers the whole width. */
  lemma RowIsCentred(s: Scene)
    ensures var r := AddLowerRowOfFences(s);
            var first := r[|s|].fence;
            var last := r[|s| + 15].fence;
            && 0.0 - first.x == (last.x + last.w) - W
            && first.x <= 0.0 && W <= last.x + last.w
  {
  }

  /**
   * A fresh row enters the band on the conveyor's first step: no fence of it starts right of the
   * band's end, and the leftmost, which overhangs the left edge by more than its width, wraps at once.
   */
  lemma FreshRowEntersBand(s: Scene, speed: real)
    requires 0.0 <= speed
    ensures var r := AddLowerRowOfFences(s);
            && (forall i :: |s| <= i < |r| ==> r[i].fence.x <= RowRight && OnBand(MoveFences(r, speed)[i].fence))
            && !OnBand(r[|s|].fence) && MoveFences(r, speed)[|s|].fence.x == W
  {
  }

  /** Removes every fence and keeps every other node, in order. */
  function ClearFences(s: Scene): (r: Scene)
    ensures forall i :: 0 <= i < |r| ==> !r[i].FenceNode?
    ensures forall n :: n in r <==> n in s && !n.FenceNode?
    ensures |r| + Count(s, IsFenceNode) == |s|
  {
    ClearFencesCount(s);
    var r := Keep(s, NotFence);
    assert forall i :: 0 <= i < |r| ==> r[i] in r;
    r
  }

  lemma {:induction false} ClearFencesCount(s: Scene)
    ensures |Keep(s, NotFence)| + Count(s, IsFenceNode) == |s|
  {
    if s != [] {
      ClearFencesCount(s[1..]);
    }
  }

  /** Clearing fences treats a scene piecewise, so the survivors keep their relative order. */
  lemma ClearFencesPreservesOrder(a: Scene, b: Scene)
    ensures ClearFences(a + b) == ClearFences(a) + ClearFences(b)
  {
    KeepConcat(a, b, NotFence);
  }

  /** Clearing fences twice is clearing them once, and a scene without fences is left untouched. */
  lemma ClearFencesIdempotent(s: Scene)
    ensures ClearFences(ClearFences(s)) == ClearFences(s)
    ensures (forall i :: 0 <= i < |s| ==> !s[i].FenceNode?) ==> ClearFences(s) == s
  {
    KeepIdempotent(s, NotFence);
    if forall i :: 0 <= i < |s| ==> !s[i].FenceNode? {
      KeepAll(s, NotFence);
    }
  }
}

=== FILE: game.dfy ===
/**
 * The game controller as one immutable state and one pure function per event: key presses and
 * releases, the per-frame movement step, the fence and obstacle ticks, the frame-lock timer and the
 * NEXT button. Randomness enters as a `Dice` value.
 */
module Game {
  import opened Geometry
  import opened Sprites
  import opened Rounds
  import opened Player
  import opened Fences
  import opened Obstacles
  import Cheat

  /** The four movement flags set by key presses and cleared by key releases. */
  datatype Held = Held(north: bool, south: bool, east: bool, west: bool)

  /**
   * The controller's state. `packagesFound` is the cumulative counter shown on the label,
   * `foundThisRound` the per-round one; `started` is the SPACE latch, `hintShown` records that the
   * first-round hint was given; `packagesLabel` is the packages label the controller holds on to; `nextId`
   * hands out identities to new obstacles and labels.
   */
  datatype State = State(
    avatar: Avatar, held: Held, hearts: int, round: int,
    packagesNeeded: int, packagesFound: int, foundThisRound: int, badObstacle: int,
    cheat: string, started: bool, hintShown: bool, fenceRunning: bool, closeRequested: bool,
    packagesLabel: Option<nat>, nextId: nat, scene: Scene)

  const IntroLines: seq<string> :=
    ["Welcome to CatchAleksa, where the virtual world is filled with lies and packet losses! Meet Aleksa, "
     + "a mysterious being who's stolen packages in transit. Your mission: collect them all."]
  const NextHint: seq<string> := ["Press NEXT once all packages have been collected."]
  const NotReadyLines: seq<string> := ["You must collect all elusive packages before continuing"]
  const GameOverLines: seq<string> :=
    ["Oh no! The stolen packages remain elusive. Fear not, brave adventurer, for even in defeat, lessons are learned. "
     + "Return to the digital realm with newfound wisdom and sharpened skills.",
     "Press ESCAPE to exit"]

  const StartHearts: int := 3
  const CheatHearts: int := 4
  const FenceSpeed: real := 2.0
  const WalkSpeed: real := 2.0

  /** The state once the start screen is shown: the avatar centred on the screen, three hearts, round 0. */
  function Initial(w: real, h: real): (g: State)
    requires 0.0 < w <= W && 0.0 < h <= H
    ensures InBounds(g.avatar) && CenterX(AvatarBox(g.avatar)) == W / 2.0 && CenterY(AvatarBox(g.avatar)) == H / 2.0
    ensures g.hearts == StartHearts && g.round == 0 && g.packagesNeeded == 0 && g.packagesFound == 0
    ensures g.foundThisRound == 0 && g.badObstacle == 0 && g.cheat == [] && g.held == Held(false, false, false, false)
    ensures !g.started && !g.hintShown && !g.fenceRunning && !g.closeRequested && g.packagesLabel.None?
    ensures g.scene == [Ui(Dialogue(IntroLines))] && g.avatar.pose == Stance(South) && !g.avatar.locked
    ensures g.avatar.upIndex == 0 && g.avatar.downIndex == 0 && g.avatar.leftIndex == 0 && g.avatar.rightIndex == 0
    ensures g.avatar.w == w && g.avatar.h == h
  {
    var a := Avatar(0.0, 0.0, w, h, Stance(South), 0, 0, 0, 0, false);
    State(MoveTo(a, W / 2.0, H / 2.0), Held(false, false, false, false), StartHearts, 0,
          0, 0, 0, 0, [], false, false, false, false, None, 0, [Ui(Dialogue(IntroLines))])
  }

  datatype RoundRead = RoundRead(value: int, state: State)

  /** The round getter: returns the round capped at 3 and stores the capped value back. */
  function GetCurrentRound(g: State): (r: RoundRead)
    ensures r.value <= MaxRound && r.state.round == r.value
    ensures r.value == g.round <==> g.round <= MaxRound
    ensures r.state == g.(round := r.value)
  {
    var v := Clamp(g.round);
    RoundRead(v, g.(round := v))
  }

  /** The round setter: stores the given round capped at 3. */
  function SetCurrentRound(g: State, round: int): (r: State)
    ensures r.round <= MaxRound && (r.round == round <==> round <= MaxRound)
    ensures r == g.(round := r.round)
  {
    g.(round := Clamp(round))
  }

  /** The packages label, if the controller holds one, taken out of the scene. */
  function RemoveLabel(s: Scene, held: Option<nat>): (r: Scene)
    ensures forall n :: n in r <==> n in s && (held.Some? ==> n != Ui(PackagesLabel(held.value)))
  {
    if held.None? then s else Keep(s, (n: Node) => n != Ui(PackagesLabel(held.value)))
  }

  /**
   * The scene game over leaves behind `s`: the game-over dialogue and the interface nodes of `s`
   * except the packages label the controller holds.
   */
  ghost predicate GameOverScene(s: Scene, held: Option<nat>, t: Scene) {
    forall n :: n in t <==>
      n == Ui(Dialogue(GameOverLines)) || (n in s && n.Ui? && (held.Some? ==> n != Ui(PackagesLabel(held.value))))
  }

  /**
   * One heart lost. While hearts remain the new hearts picture is shown; below zero the game is over:
   * obstacles and fences are cleared, the fence band stops, the packages label goes and the game-over
   * dialogue appears.
   */
  function UpdateHearts(g: State): (r: State)
    ensures r.hearts == g.hearts - 1
    ensures r.hearts >= 0 ==> r == g.(hearts := g.hearts - 1, scene := g.scene + [Ui(HeartsPanel(g.hearts - 1))])
    ensures r.hearts < 0 ==>
              && (forall i :: 0 <= i < |r.scene| ==> !r.scene[i].ObstacleNode? && !r.scene[i].FenceNode?)
              && !r.fenceRunning && Ui(Dialogue(GameOverLines)) in r.scene
              && r == g.(hearts := r.hearts, fenceRunning := false, scene := r.scene)
    ensures r.hearts < 0 ==> GameOverScene(g.scene, g.packagesLabel, r.scene)
    ensures forall n :: n in r.scene ==> n in g.scene || n.Ui?
    ensures Count(r.scene, IsGoodNode) <= Count(g.scene, IsGoodNode)
  {
    var hearts := g.hearts - 1;
    if hearts >= 0 then
      var panel := [Ui(HeartsPanel(hearts))];
      CountConcat(g.scene, panel, IsGoodNode);
      g.(hearts := hearts, scene := g.scene + panel)
    else
      var cleared := RemoveLabel(ClearFences(ClearObstacles(g.scene)), g.packagesLabel);
      var s := cleared + [Ui(Dialogue(GameOverLines))];
      assert forall i :: 0 <= i < |cleared| ==> cleared[i] in cleared;
      CountZero(s, IsGoodNode);
      assert forall i :: 0 <= i < |s| ==> !s[i].ObstacleNode? && !s[i].FenceNode?;
      g.(hearts := hearts, fenceRunning := false, scene := s)
  }

  /** Applies UpdateHearts n times. */
  function BadHits(g: State, n: nat): State {
    if n == 0 then g else UpdateHearts(BadHits(g, n - 1))
  }

  /** Every hit costs exactly one heart, and the game-over branch runs exactly when hearts go below zero. */
  lemma {:induction false} HeartsAfterBadHits(g: State, n: nat)
    ensures BadHits(g, n).hearts == g.hearts - n
    ensures g.hearts >= n ==> |BadHits(g, n).scene| == |g.scene| + n && BadHits(g, n).scene[..|g.scene|] == g.scene
    ensures g.hearts >= n ==> BadHits(g, n).fenceRunning == g.fenceRunning
    ensures g.hearts >= n ==> BadHits(g, n) == g.(hearts := g.hearts - n, scene := BadHits(g, n).scene)
    ensures g.hearts >= n ==> forall k :: |g.scene| <= k < |g.scene| + n ==>
              BadHits(g, n).scene[k] == Ui(HeartsPanel(g.hearts - 1 - (k - |g.scene|)))
  {
    if n > 0 {
      HeartsAfterBadHits(g, n - 1);
      var prev := BadHits(g, n - 1);
      if g.hearts >= n {
        assert BadHits(g, n) == prev.(hearts := prev.hearts - 1, scene := prev.scene + [Ui(HeartsPanel(g.hearts - n))]);
      }
    }
  }

  /** The game that starts with three hearts ends on the fourth bad hit, not before. */
  lemma FourthBadHitEndsTheGame(g: State)
    requires g.hearts == StartHearts
    ensures forall n: nat :: 1 <= n <= 3 ==> BadHits(g, n).hearts >= 0
    ensures BadHits(g, 4).hearts < 0 && !BadHits(g, 4).fenceRunning
  {
    forall n: nat | 1 <= n <= 3
      ensures BadHits(g, n).hearts >= 0
    {
      HeartsAfterBadHits(g, n);
    }
    HeartsAfterBadHits(g, 4);
  }

  /**
   * One tick of the obstacle with this id: two units left; on touching the player it scores
   * (good, not yet counted) or costs a heart (bad, not yet counted) and is removed either way;
   * otherwise, once fully off-left, it jumps to W + 50 on its own row. An obstacle that is no
   * longer in the scene has no running animation, so its tick changes nothing.
   */
  function TickObstacle(g: State, id: nat): (r: State)
    ensures FindObstacle(g.scene, id).None? ==> r == g
    ensures match FindObstacle(g.scene, id)
            case None => true
            case Some(i) =>
              var moved := Stepped(g, i);
              if Collides(AvatarBox(g.avatar), ObstacleBox(moved)) then
                var rest := RemoveObstacle(g.scene, id);
                && FindObstacle(r.scene, id).None?
                && r == g.(packagesFound := r.packagesFound, foundThisRound := r.foundThisRound, badObstacle := r.badObstacle,
                           hearts := r.hearts, fenceRunning := r.fenceRunning, scene := r.scene)
                && (r.hearts >= 0 || r.hearts == g.hearts ==>
                      r.fenceRunning == g.fenceRunning && rest <= r.scene && |r.scene| <= |rest| + 1)
              else
                && r == g.(scene := r.scene) && |r.scene| == |g.scene|
                && (forall j :: 0 <= j < |g.scene| && j != i ==> r.scene[j] == g.scene[j])
                && FindObstacle(r.scene, id) == Some(i)
                && r.scene[i] == ObstacleNode(if moved.x + moved.w < 0.0 then moved.(x := ResetX, y := moved.homeY) else moved)
  {
    match FindObstacle(g.scene, id)
    case None => g
    case Some(i) =>
      if Collides(AvatarBox(g.avatar), ObstacleBox(Stepped(g, i))) then
        TouchSummary(g, i);
        assert TickAt(g, i) == Touch(g, i, Stepped(g, i));
        TickAt(g, i)
      else
        TickAwayStaysFirst(g, i);
        TickAt(g, i)
  }

  /** An obstacle that moves or wraps keeps its place, so the next tick finds it at the same position. */
  lemma TickAwayStaysFirst(g: State, i: nat)
    requires i < |g.scene| && g.scene[i].ObstacleNode? && FindObstacle(g.scene, g.scene[i].obstacle.id) == Some(i)
    ensures !Collides(AvatarBox(g.avatar), ObstacleBox(Stepped(g, i))) ==>
              FindObstacle(TickAt(g, i).scene, g.scene[i].obstacle.id) == Some(i)
  {
    if !Collides(AvatarBox(g.avatar), ObstacleBox(Stepped(g, i))) {
      FindObstacleFirst(TickAt(g, i).scene, g.scene[i].obstacle.id, i);
    }
  }

  /** The obstacle at scene position i after its two-unit step left. */
  function Stepped(g: State, i: nat): Obstacle
    requires i < |g.scene| && g.scene[i].ObstacleNode?
  {
    var o := g.scene[i].obstacle;
    o.(x := o.x - ObstacleSpeed)
  }

  function TickAt(g: State, i: nat): State
    requires i < |g.scene| && g.scene[i].ObstacleNode?
  {
    var moved := Stepped(g, i);
    if Collides(AvatarBox(g.avatar), ObstacleBox(moved)) then
      Touch(g, i, moved)
    else if moved.x + moved.w < 0.0 then
      g.(scene := g.scene[i := ObstacleNode(moved.(x := ResetX, y := moved.homeY))])
    else
      g.(scene := g.scene[i := ObstacleNode(moved)])
  }

  /** The obstacle at position i, already stepped to `moved`, touches the player: score it or take a heart, then remove it. */
  function Touch(g: State, i: nat, moved: Obstacle): State
    requires i < |g.scene|
  {
    var scored := if IsGood(moved) then ScoreGood(g, i, moved) else HitBad(g, i, moved);
    scored.(scene := RemoveObstacle(scored.scene, moved.id))
  }

  /** A good obstacle touched: both package counters go up once, the first time only. */
  function ScoreGood(g: State, i: nat, moved: Obstacle): State
    requires i < |g.scene|
  {
    if !moved.countedPackages then
      g.(packagesFound := g.packagesFound + 1, foundThisRound := g.foundThisRound + 1,
         scene := g.scene[i := ObstacleNode(moved.(countedPackages := true))])
    else g.(scene := g.scene[i := ObstacleNode(moved)])
  }

  /** A bad obstacle touched: one bad touch and one heart, the first time only. */
  function HitBad(g: State, i: nat, moved: Obstacle): State
    requires i < |g.scene|
  {
    if !moved.counted then
      UpdateHearts(g.(badObstacle := g.badObstacle + 1, scene := g.scene[i := ObstacleNode(moved.(counted := true))]))
    else g.(scene := g.scene[i := ObstacleNode(moved)])
  }

  /** A removed obstacle never ticks again. */
  lemma TickOfAbsentObstacle(g: State, id: nat)
    requires FindObstacle(g.scene, id).None?
    ensures TickObstacle(g, id) == g
  {
  }

  /** Without a collision the obstacle moves two units left, or wraps to (W + 50, its row), keeping its counted flags; nothing else changes. */
  lemma TickWithoutCollision(g: State, id: nat)
    requires FindObstacle(g.scene, id).Some?
    requires var o := g.scene[FindObstacle(g.scene, id).value].obstacle;
             !Collides(AvatarBox(g.avatar), ObstacleBox(o.(x := o.x - 2.0)))
    ensures var i := FindObstacle(g.scene, id).value;
            var o := g.scene[i].obstacle;
            var r := TickObstacle(g, id);
            && r == g.(scene := r.scene) && |r.scene| == |g.scene|
            && (forall j :: 0 <= j < |g.scene| && j != i ==> r.scene[j] == g.scene[j])
            && r.scene[i].ObstacleNode?
            && var p := r.scene[i].obstacle;
            && p == o.(x := p.x, y := p.y)
            && (o.x - 2.0 + o.w < 0.0 ==> p.x == W + 50.0 && p.y == o.homeY)
            && (o.x - 2.0 + o.w >= 0.0 ==> p.x == o.x - 2.0 && p.y == o.y)
  {
    var i := FindObstacle(g.scene, id).value;
    var moved := Stepped(g, i);
    assert moved == g.scene[i].obstacle.(x := g.scene[i].obstacle.x - 2.0);
    var r := TickObstacle(g, id);
    assert r.scene[i] == ObstacleNode(if moved.x + moved.w < 0.0 then moved.(x := ResetX, y := moved.homeY) else moved);
  }

  /** Touching a good obstacle not yet counted raises both package counters by exactly one and removes it. */
  lemma TickGoodHit(g: State, id: nat)
    requires FindObstacle(g.scene, id).Some?
    requires var o := g.scene[FindObstacle(g.scene, id).value].obstacle;
             Collides(AvatarBox(g.avatar), ObstacleBox(o.(x := o.x - 2.0))) && IsGood(o) && !o.countedPackages
    ensures var r := TickObstacle(g, id);
            && r.packagesFound == g.packagesFound + 1 && r.foundThisRound == g.foundThisRound + 1
            && r.hearts == g.hearts && r.badObstacle == g.badObstacle && r.packagesNeeded == g.packagesNeeded
            && FindObstacle(r.scene, id).None?
    ensures TickObstacle(g, id) ==
              g.(packagesFound := g.packagesFound + 1, foundThisRound := g.foundThisRound + 1,
                 scene := RemoveObstacle(g.scene, id))
  {
    var i := FindObstacle(g.scene, id).value;
    assert TickObstacle(g, id) == Touch(g, i, Stepped(g, i));
    TouchGoodFrame(g, i);
  }

  /** Touching a bad obstacle not yet counted adds one bad touch, costs one heart, and removes it. */
  lemma TickBadHit(g: State, id: nat)
    requires FindObstacle(g.scene, id).Some?
    requires var o := g.scene[FindObstacle(g.scene, id).value].obstacle;
             Collides(AvatarBox(g.avatar), ObstacleBox(o.(x := o.x - 2.0))) && !IsGood(o) && !o.counted
    ensures var r := TickObstacle(g, id);
            && r.badObstacle == g.badObstacle + 1 && r.hearts == g.hearts - 1
            && r.packagesFound == g.packagesFound && r.foundThisRound == g.foundThisRound
            && FindObstacle(r.scene, id).None?
            && (r.hearts < 0 ==> forall j :: 0 <= j < |r.scene| ==> !r.scene[j].ObstacleNode? && !r.scene[j].FenceNode?)
    ensures var r := TickObstacle(g, id);
            && (g.hearts >= 1 ==>
                  r == g.(badObstacle := g.badObstacle + 1, hearts := g.hearts - 1,
                          scene := RemoveObstacle(g.scene, id) + [Ui(HeartsPanel(g.hearts - 1))]))
            && (g.hearts < 1 ==>
                  && r == g.(badObstacle := g.badObstacle + 1, hearts := g.hearts - 1, fenceRunning := false, scene := r.scene)
                  && GameOverScene(g.scene, g.packagesLabel, r.scene))
  {
    var i := FindObstacle(g.scene, id).value;
    var o := g.scene[i].obstacle;
    assert Stepped(g, i) == o.(x := o.x - 2.0);
    TouchBadFacts(g, i, id);
    TouchBadFrame(g, i);
    assert TickAt(g, i) == Touch(g, i, Stepped(g, i));
    assert TickObstacle(g, id) == TickAt(g, i);
  }

  /** The bad-touch branch of Touch on its own: one bad touch, one heart, and the obstacle gone. */
  lemma TouchBadFacts(g: State, i: nat, id: nat)
    requires i < |g.scene| && g.scene[i].ObstacleNode? && g.scene[i].obstacle.id == id
    requires !IsGood(g.scene[i].obstacle) && !g.scene[i].obstacle.counted
    ensures var r := Touch(g, i, Stepped(g, i));
            && r.badObstacle == g.badObstacle + 1 && r.hearts == g.hearts - 1
            && r.packagesFound == g.packagesFound && r.foundThisRound == g.foundThisRound
            && FindObstacle(r.scene, id).None?
            && (r.hearts < 0 ==> forall j :: 0 <= j < |r.scene| ==> !r.scene[j].ObstacleNode? && !r.scene[j].FenceNode?)
  {
    var moved := Stepped(g, i);
    var hit := UpdateHearts(g.(badObstacle := g.badObstacle + 1, scene := g.scene[i := ObstacleNode(moved.(counted := true))]));
    assert HitBad(g, i, moved) == hit;
    var r := hit.(scene := RemoveObstacle(hit.scene, id));
    assert Touch(g, i, moved) == r;
    assert forall j :: 0 <= j < |r.scene| ==> r.scene[j] in hit.scene;
  }


  /** A good obstacle touched: the package counters go up unless it was counted, and only that obstacle leaves the scene. */
  lemma TouchGoodFrame(g: State, i: nat)
    requires i < |g.scene| && g.scene[i].ObstacleNode? && IsGood(g.scene[i].obstacle)
    ensures var o := g.scene[i].obstacle;
            var add := if o.countedPackages then 0 else 1;
            Touch(g, i, Stepped(g, i)) ==
              g.(packagesFound := g.packagesFound + add, foundThisRound := g.foundThisRound + add,
                 scene := RemoveObstacle(g.scene, o.id))
  {
    var moved := Stepped(g, i);
    RemoveOverwrite(g.scene, i, ObstacleNode(moved), moved.id);
    RemoveOverwrite(g.scene, i, ObstacleNode(moved.(countedPackages := true)), moved.id);
  }

  /** A bad obstacle touched again after it was counted: it only leaves the scene. */
  lemma TouchCountedBadFrame(g: State, i: nat)
    requires i < |g.scene| && g.scene[i].ObstacleNode? && !IsGood(g.scene[i].obstacle) && g.scene[i].obstacle.counted
    ensures Touch(g, i, Stepped(g, i)) == g.(scene := RemoveObstacle(g.scene, g.scene[i].obstacle.id))
  {
    var moved := Stepped(g, i);
    RemoveOverwrite(g.scene, i, ObstacleNode(moved), moved.id);
  }

  /**
   * A bad obstacle touched for the first time: one bad touch and one heart. With a heart to spare
   * only that obstacle leaves and a hearts picture is added; otherwise the game-over scene remains.
   */
  lemma TouchBadFrame(g: State, i: nat)
    requires i < |g.scene| && g.scene[i].ObstacleNode? && !IsGood(g.scene[i].obstacle) && !g.scene[i].obstacle.counted
    ensures var r := Touch(g, i, Stepped(g, i));
            var rest := RemoveObstacle(g.scene, g.scene[i].obstacle.id);
            && (g.hearts >= 1 ==>
                  r == g.(badObstacle := g.badObstacle + 1, hearts := g.hearts - 1, scene := rest + [Ui(HeartsPanel(g.hearts - 1))]))
            && (g.hearts < 1 ==>
                  && r == g.(badObstacle := g.badObstacle + 1, hearts := g.hearts - 1, fenceRunning := false, scene := r.scene)
                  && GameOverScene(g.scene, g.packagesLabel, r.scene))
  {
    var moved := Stepped(g, i);
    var n := ObstacleNode(moved.(counted := true));
    var s := g.scene[i := n];
    var hit := UpdateHearts(g.(badObstacle := g.badObstacle + 1, scene := s));
    assert HitBad(g, i, moved) == hit;
    var r := hit.(scene := RemoveObstacle(hit.scene, moved.id));
    assert Touch(g, i, moved) == r;
    RemoveOverwrite(g.scene, i, n, moved.id);
    if g.hearts >= 1 {
      RemoveBeforeUi(s, Ui(HeartsPanel(g.hearts - 1)), moved.id);
    } else {
      assert forall m: Node :: m.Ui? ==> (m in s <==> m in g.scene);
    }
  }

  /**
   * A touch in one picture: the obstacle is gone, only the counters, hearts, band flag and scene
   * may change, and unless the game ended the rest of the scene stays, at most one node longer.
   */
  lemma TouchSummary(g: State, i: nat)
    requires i < |g.scene| && g.scene[i].ObstacleNode?
    ensures var id := g.scene[i].obstacle.id;
            var r := Touch(g, i, Stepped(g, i));
            var rest := RemoveObstacle(g.scene, id);
            && FindObstacle(r.scene, id).None?
            && r == g.(packagesFound := r.packagesFound, foundThisRound := r.foundThisRound, badObstacle := r.badObstacle,
                       hearts := r.hearts, fenceRunning := r.fenceRunning, scene := r.scene)
            && (r.hearts >= 0 || r.hearts == g.hearts ==>
                  r.fenceRunning == g.fenceRunning && rest <= r.scene && |r.scene| <= |rest| + 1)
  {
    var o := g.scene[i].obstacle;
    if IsGood(o) {
      TouchGoodFrame(g, i);
    } else if o.counted {
      TouchCountedBadFrame(g, i);
    } else {
      TouchBadFrame(g, i);
    }
  }

  /** An obstacle of width 190 at x = -189 wraps on its next tick to x = 1970 on its row, flags kept. */
  lemma WrapExample(g: State, o: Obstacle)
    requires g.scene == [ObstacleNode(o)]
    requires o.x == -189.0 && o.w == 190.0 && o.h == 100.0 && o.y == 480.0 && o.homeY == 480.0
    requires g.avatar.x == 0.0 && g.avatar.y == 0.0 && g.avatar.w == 100.0 && g.avatar.h == 100.0
    ensures TickObstacle(g, o.id).scene == [ObstacleNode(o.(x := 1970.0))]
  {
  }

  /** Appends this round's 42 obstacles; the quota comes from the capped round and adds to the packages needed. */
  function SpawnObstacles(g: State, d: Dice): (r: State)
    requires ValidDice(d)
    ensures r.round == Clamp(g.round)
    ensures r.packagesNeeded == g.packagesNeeded + GoodCount(Clamp(g.round))
    ensures r.nextId == g.nextId + CellCount
    ensures |r.scene| == |g.scene| + CellCount && r.scene[..|g.scene|] == g.scene
    ensures Count(r.scene, IsGoodNode) == Count(g.scene, IsGoodNode) + GoodCount(Clamp(g.round))
    ensures forall k :: |g.scene| <= k < |r.scene| ==> FreshObstacle(r.scene[k])
    ensures forall c :: 0 <= c < CellCount ==> CellFilled(r.scene, |g.scene|, c)
    ensures AllPristine(g.scene) ==> AllPristine(r.scene)
    ensures r == g.(round := r.round, packagesNeeded := r.packagesNeeded, nextId := r.nextId, scene := r.scene)
  {
    var read := GetCurrentRound(g);
    var quota := GoodCount(read.value);
    var nodes := SpawnRound(d, quota, g.nextId);
    CountConcat(g.scene, nodes, IsGoodNode);
    var s := g.scene + nodes;
    assert forall k :: 0 <= k < CellCount ==> s[|g.scene| + k] == nodes[k];
    AppendFills(g.scene, nodes);
    AppendPristine(g.scene, nodes);
    read.state.(packagesNeeded := g.packagesNeeded + Count(nodes, IsGoodNode), nextId := g.nextId + CellCount,
                scene := s)
  }

  /**
   * The new obstacles take the identities nextId, nextId + 1, ... in scene order, all at or above
   * the old counter, which moves past them.
   */
  lemma SpawnedIds(g: State, d: Dice)
    requires ValidDice(d)
    ensures var r := SpawnObstacles(g, d);
            forall k :: |g.scene| <= k < |r.scene| ==>
              r.scene[k].ObstacleNode? && r.scene[k].obstacle.id == g.nextId + (k - |g.scene|) < r.nextId
  {
    var read := GetCurrentRound(g);
    var quota := GoodCount(read.value);
    var nodes := SpawnRound(d, quota, g.nextId);
    SpawnRoundIds(d, quota, g.nextId);
    var r := SpawnObstacles(g, d);
    assert r.scene == g.scene + nodes;
    forall k | |g.scene| <= k < |r.scene|
      ensures r.scene[k].ObstacleNode? && r.scene[k].obstacle.id == g.nextId + (k - |g.scene|) < r.nextId
    {
      assert r.scene[k] == nodes[k - |g.scene|];
    }
  }

  /** The stage panel, packages label, NEXT button and hearts picture; the stage shown comes from the capped round. */
  function AddInfoPanels(g: State): (r: State)
    ensures r.round == Clamp(g.round)
    ensures |r.scene| == |g.scene| + 4 && r.scene[..|g.scene|] == g.scene && Ui(NextButton) in r.scene
    ensures r.scene[|g.scene|..] ==
              [Ui(ScorePanel(Clamp(g.round))), Ui(PackagesLabel(g.nextId)), Ui(NextButton), Ui(HeartsPanel(g.hearts))]
    ensures r.packagesLabel == Some(g.nextId) && r.nextId == g.nextId + 1
    ensures Count(r.scene, IsGoodNode) == Count(g.scene, IsGoodNode)
    ensures forall n :: n in r.scene ==> n in g.scene || n.Ui?
    ensures r == g.(round := r.round, packagesLabel := r.packagesLabel, nextId := r.nextId, scene := r.scene)
  {
    var read := GetCurrentRound(g);
    var panels := [Ui(ScorePanel(read.value)), Ui(PackagesLabel(g.nextId)), Ui(NextButton), Ui(HeartsPanel(g.hearts))];
    CountConcat(g.scene, panels, IsGoodNode);
    CountZero(panels, IsGoodNode);
    var s := g.scene + panels;
    assert s[|g.scene|] == Ui(ScorePanel(read.value)) && s[|g.scene| + 2] == Ui(NextButton);
    assert s[|g.scene|..] == panels;
    read.state.(packagesLabel := Some(g.nextId), nextId := g.nextId + 1, scene := s)
  }

  /** The scene of a new round before its fence row: no obstacle, no fence, and the hint the first time. */
  function ClearedScene(g: State): (r: Scene)
    ensures forall n :: n in r ==> !n.ObstacleNode? && !n.FenceNode?
    ensures Count(r, IsGoodNode) == 0
    ensures Ui(Dialogue(NextHint)) in r <==> !g.hintShown || Ui(Dialogue(NextHint)) in g.scene
  {
    var cleared := ClearFences(ClearObstacles(g.scene));
    CountZero(cleared, IsGoodNode);
    CountConcat(cleared, [Ui(Dialogue(NextHint))], IsGoodNode);
    if !g.hintShown then cleared + [Ui(Dialogue(NextHint))] else cleared
  }

  /**
   * The first half of a new round: the round counter goes up, obstacles and fences are cleared,
   * the avatar is moved to (W/4, H/2) if it fits, the first time a hint is shown, and a fresh
   * fence row is laid and set moving.
   */
  function PrepareRound(g: State): (r: State)
    ensures r.round == g.round + 1 && r.fenceRunning && r.hintShown
    ensures Count(r.scene, IsGoodNode) == 0
    ensures forall n :: n in r.scene ==> !n.ObstacleNode?
    ensures |r.scene| >= FenceCount
    ensures var row := |r.scene| - FenceCount;
            && (forall i :: row <= i < |r.scene| ==> r.scene[i] == FenceNode(Fence(RowX(i - row), StartY, FenceWidth)))
            && (forall i :: 0 <= i < row ==> !r.scene[i].FenceNode?)
            && r.scene[..row] == ClearFences(ClearObstacles(g.scene)) + (if g.hintShown then [] else [Ui(Dialogue(NextHint))])
    ensures Ui(Dialogue(NextHint)) in r.scene <==> !g.hintShown || Ui(Dialogue(NextHint)) in g.scene
    ensures r.avatar == MoveTo(g.avatar, W / 4.0, H / 2.0)
    ensures r == g.(round := r.round, fenceRunning := true, hintShown := true, avatar := r.avatar, scene := r.scene)
    ensures |r.scene| == |ClearedScene(g)| + FenceCount && r.scene[..|ClearedScene(g)|] == ClearedScene(g)
  {
    var hinted := ClearedScene(g);
    var fenced := AddLowerRowOfFences(hinted);
    RowFollowsScene(hinted, IsGoodNode);
    g.(round := g.round + 1, fenceRunning := true, hintShown := true,
       avatar := MoveTo(g.avatar, W / 4.0, H / 2.0), scene := fenced)
  }

  /**
   * A new round: PrepareRound, then the round's obstacles, and last the info panels, which the
   * controller posts to run after the current event.
   */
  function StartNewGame(g: State, d: Dice): (r: State)
    requires ValidDice(d)
    ensures r.round == Clamp(g.round + 1)
    ensures r.packagesNeeded == g.packagesNeeded + GoodCount(Clamp(g.round + 1))
    ensures Count(r.scene, IsGoodNode) == GoodCount(Clamp(g.round + 1))
    ensures r.fenceRunning && r.hintShown
    ensures r.packagesFound == g.packagesFound && r.foundThisRound == g.foundThisRound && r.hearts == g.hearts
    ensures r.cheat == g.cheat && r.held == g.held && r.started == g.started
    ensures InBounds(g.avatar) ==> InBounds(r.avatar)
    ensures FramesInRange(g.avatar) ==> FramesInRange(r.avatar)
    ensures AllPristine(r.scene)
    ensures r.avatar == MoveTo(g.avatar, W / 4.0, H / 2.0)
    ensures r.packagesLabel == Some(g.nextId + CellCount) && r.nextId == g.nextId + CellCount + 1
    ensures r == g.(round := r.round, packagesNeeded := r.packagesNeeded, fenceRunning := true, hintShown := true,
                    avatar := r.avatar, packagesLabel := r.packagesLabel, nextId := r.nextId, scene := r.scene)
  {
    var prepared := PrepareRound(g);
    var spawned := SpawnObstacles(prepared, d);
    assert spawned.round == Clamp(g.round + 1) && spawned.avatar == prepared.avatar;
    assert spawned == g.(round := spawned.round, packagesNeeded := spawned.packagesNeeded, fenceRunning := true,
                         hintShown := true, avatar := spawned.avatar, nextId := g.nextId + CellCount, scene := spawned.scene);
    AddInfoPanels(spawned)
  }

  /** A prefix of a prefix of a scene is a prefix of it. */
  lemma KeepsPrefix(a: Scene, b: Scene, c: Scene)
    requires |a| <= |b| <= |c| && b[..|a|] == a && c[..|b|] == b
    ensures c[..|a|] == a
  {
    assert c[..|a|] == c[..|b|][..|a|];
  }

  /**
   * A new round keeps the old scene's nodes other than obstacles and fences, in order, with the
   * hint after them on the first round; everything the round adds comes after that.
   */
  lemma NewRoundKeepsClearedScene(g: State, d: Dice)
    requires ValidDice(d)
    ensures var s := StartNewGame(g, d).scene;
            var kept := ClearFences(ClearObstacles(g.scene)) + (if g.hintShown then [] else [Ui(Dialogue(NextHint))]);
            |s| == |kept| + FenceCount + CellCount + 4 && s[..|kept|] == kept
  {
    var kept := ClearedScene(g);
    var prepared := PrepareRound(g);
    var spawned := SpawnObstacles(prepared, d);
    SpawnsAfter(prepared, d);
    PanelsAdded(spawned);
    KeepsPrefix(kept, prepared.scene, spawned.scene);
    KeepsPrefix(kept, spawned.scene, AddInfoPanels(spawned).scene);
    assert StartNewGame(g, d) == AddInfoPanels(spawned);
  }

  /** A new round's scene is laid out as RoundScene describes, with the stage and label of the new round. */
  lemma NewRoundLayout(g: State, d: Dice)
    requires ValidDice(d)
    ensures RoundScene(StartNewGame(g, d).scene, Clamp(g.round + 1), g.nextId + CellCount, g.hearts)
  {
    var p := PrepareRound(g);
    PreparedLaysRow(g);
    assert p.round == g.round + 1 && p.nextId == g.nextId && p.hearts == g.hearts;
    SpawnedLayout(p, d);
    assert StartNewGame(g, d) == AddInfoPanels(SpawnObstacles(p, d));
  }

  /** Obstacles and panels added after a laid fence row give a RoundScene. */
  lemma SpawnedLayout(p: State, d: Dice)
    requires ValidDice(d) && LaidRow(p.scene)
    ensures RoundScene(AddInfoPanels(SpawnObstacles(p, d)).scene, Clamp(p.round), p.nextId + CellCount, p.hearts)
  {
    var spawned := SpawnObstacles(p, d);
    SpawnsAfter(p, d);
    PanelsAdded(spawned);
    assert spawned.nextId == p.nextId + CellCount && spawned.hearts == p.hearts && Clamp(spawned.round) == Clamp(p.round);
    RoundLayout(p.scene, spawned.scene, AddInfoPanels(spawned).scene, Clamp(p.round), p.nextId + CellCount, p.hearts);
  }

  /** The info panels are appended in the controller's order. */
  lemma PanelsAdded(g: State)
    ensures PanelsAfter(g.scene, AddInfoPanels(g).scene, Clamp(g.round), g.nextId, g.hearts)
  {
  }

  /** The first half of a new round ends with a fresh fence row after interface nodes only. */
  lemma PreparedLaysRow(g: State)
    ensures LaidRow(PrepareRound(g).scene)
  {
    var s := PrepareRound(g).scene;
    var row := |s| - FenceCount;
    forall k | 0 <= k < row
      ensures s[k].Ui?
    {
      assert s[k] in s && !s[k].FenceNode?;
    }
  }

  /** Spawning appends one fresh obstacle per grid cell. */
  lemma SpawnsAfter(g: State, d: Dice)
    requires ValidDice(d)
    ensures SpawnedAfter(g.scene, SpawnObstacles(g, d).scene)
  {
  }

  /** A scene whose last 16 nodes are a fresh fence row, with only interface nodes before it. */
  predicate LaidRow(s: Scene) {
    && |s| >= FenceCount
    && (forall k :: 0 <= k < |s| - FenceCount ==> s[k].Ui?)
    && (forall k :: |s| - FenceCount <= k < |s| ==> s[k] == FenceNode(Fence(RowX(k - (|s| - FenceCount)), StartY, FenceWidth)))
  }

  /** `t` is `s` followed by one round of fresh obstacles, one in every grid cell. */
  predicate SpawnedAfter(s: Scene, t: Scene) {
    && |t| == |s| + CellCount && t[..|s|] == s
    && (forall k :: |s| <= k < |t| ==> FreshObstacle(t[k]))
    && (forall c :: 0 <= c < CellCount ==> CellFilled(t, |s|, c))
  }

  /** `s` is `t` followed by the stage panel, packages label, NEXT button and hearts picture. */
  predicate PanelsAfter(t: Scene, s: Scene, stage: int, labelId: nat, hearts: int) {
    && |s| == |t| + 4 && s[..|t|] == t
    && s[|t|..] == [Ui(ScorePanel(stage)), Ui(PackagesLabel(labelId)), Ui(NextButton), Ui(HeartsPanel(hearts))]
  }

  /**
   * The scene of a freshly started round, back to front: the stage panel, packages label, NEXT
   * button and hearts picture; before them 42 fresh obstacles filling every grid cell; before
   * those the 16 fences of the row; before those only interface nodes. So the scene holds exactly
   * 16 fences and 42 obstacles.
   */
  predicate RoundScene(s: Scene, stage: int, labelId: nat, hearts: int) {
    && |s| >= FenceCount + CellCount + 4
    && var panels := |s| - 4;
       var spawn := panels - CellCount;
       var row := spawn - FenceCount;
       && s[panels..] == [Ui(ScorePanel(stage)), Ui(PackagesLabel(labelId)), Ui(NextButton), Ui(HeartsPanel(hearts))]
       && (forall k :: spawn <= k < panels ==> FreshObstacle(s[k]))
       && (forall c :: 0 <= c < CellCount ==> CellFilled(s, spawn, c))
       && (forall k :: row <= k < spawn ==> s[k] == FenceNode(Fence(RowX(k - row), StartY, FenceWidth)))
       && (forall k :: 0 <= k < row ==> s[k].Ui?)
       && Count(s, IsFenceNode) == FenceCount && Count(s, IsObstacleNode) == CellCount
  }

  /**
   * The scene of a new round in four parts: interface nodes, the fence row, the spawned
   * obstacles and the panels; fences and obstacles are counted part by part.
   */
  lemma RoundLayout(prepared: Scene, spawned: Scene, s: Scene, stage: int, labelId: nat, hearts: int)
    requires LaidRow(prepared)
    requires SpawnedAfter(prepared, spawned)
    requires PanelsAfter(spawned, s, stage, labelId, hearts)
    ensures RoundScene(s, stage, labelId, hearts)
  {
    FilledStaysFilled(spawned, s[|spawned|..], |prepared|);
    assert s == spawned + s[|spawned|..];
    var row := |prepared| - FenceCount;
    var a, b, c, d := prepared[..row], prepared[row..], spawned[|prepared|..], s[|spawned|..];
    assert prepared == a + b;
    assert spawned == prepared + c;
    assert s == a + b + c + d;
    CountFour(a, b, c, d, IsFenceNode);
    CountFour(a, b, c, d, IsObstacleNode);
    CountZero(a, IsFenceNode);
    CountZero(a, IsObstacleNode);
    CountAll(b, IsFenceNode);
    CountZero(b, IsObstacleNode);
    CountZero(c, IsFenceNode);
    CountAll(c, IsObstacleNode);
    CountZero(d, IsFenceNode);
    CountZero(d, IsObstacleNode);
    forall k | 0 <= k < |spawned|
      ensures s[k] == spawned[k]
    {
      assert s[..|spawned|][k] == s[k];
    }
  }

  /** The NEXT button's test: the packages needed so far equal the cumulative packages found. */
  predicate ReadyForNext(g: State) {
    g.packagesNeeded == g.packagesFound
  }

  /** Pressing NEXT: a new round with the per-round counter reset if ready, otherwise only a reminder bubble. */
  function PressNext(g: State, d: Dice): (r: State)
    requires ValidDice(d)
    requires Ui(NextButton) in g.scene
    ensures ReadyForNext(g) ==> r.round == Clamp(g.round + 1) && r.foundThisRound == 0 && r.packagesFound == g.packagesFound
    ensures ReadyForNext(g) ==> r == StartNewGame(g, d).(foundThisRound := 0)
    ensures !ReadyForNext(g) ==> r == g.(scene := g.scene + [Ui(Dialogue(NotReadyLines))])
  {
    if ReadyForNext(g) then StartNewGame(g, d).(foundThisRound := 0)
    else g.(scene := g.scene + [Ui(Dialogue(NotReadyLines))])
  }

  /** The gate reads the cumulative count only: the per-round counter plays no part in it. */
  lemma GateIgnoresRoundCounter(g: State, n: int)
    ensures ReadyForNext(g.(foundThisRound := n)) <==> g.packagesNeeded == g.packagesFound
  {
  }

  /** Key presses: arrows set their movement flag; SPACE on the start zone starts the game once. */
  function KeyDown(g: State, k: Cheat.Key, d: Dice): (r: State)
    requires ValidDice(d)
    ensures k == Cheat.SpaceKey && OnStart(g.avatar) && !g.started ==> r == StartNewGame(g.(started := true), d)
    ensures k == Cheat.SpaceKey && !(OnStart(g.avatar) && !g.started) ==> r == g
    ensures k != Cheat.SpaceKey ==> r == g.(held := r.held)
    ensures k == Cheat.UpKey ==> r.held == g.held.(north := true)
    ensures k == Cheat.DownKey ==> r.held == g.held.(south := true)
    ensures k == Cheat.LeftKey ==> r.held == g.held.(west := true)
    ensures k == Cheat.RightKey ==> r.held == g.held.(east := true)
    ensures !(k.UpKey? || k.DownKey? || k.LeftKey? || k.RightKey? || k.SpaceKey?) ==> r == g
  {
    match k
    case UpKey => g.(held := g.held.(north := true))
    case DownKey => g.(held := g.held.(south := true))
    case LeftKey => g.(held := g.held.(west := true))
    case RightKey => g.(held := g.held.(east := true))
    case SpaceKey => if OnStart(g.avatar) && !g.started then StartNewGame(g.(started := true), d) else g
    case _ => g
  }

  /** SPACE changes the state exactly from the start zone, with the latch free: the avatar's corner right of x = 1550 and between y = 350 and y = 500. */
  lemma SpaceNeedsStartZone(g: State, d: Dice)
    requires ValidDice(d)
    ensures KeyDown(g, Cheat.SpaceKey, d) != g <==> g.avatar.x > 1550.0 && 350.0 < g.avatar.y < 500.0 && !g.started
  {
  }

  /** SPACE starts at most one round: a second SPACE finds the latch taken, or finds nothing to do as the first did. */
  lemma SpaceLatchesOnce(g: State, d: Dice, d2: Dice)
    requires ValidDice(d) && ValidDice(d2)
    ensures KeyDown(KeyDown(g, Cheat.SpaceKey, d), Cheat.SpaceKey, d2) == KeyDown(g, Cheat.SpaceKey, d)
  {
  }

  /**
   * The release handler's key part: arrows clear their movement flag and may set a standing
   * picture (up and down always, left and right only while the frame lock is held); Escape drops
   * the SPACE latch and asks to close.
   */
  function Release(g: State, k: Cheat.Key): (r: State)
    ensures r == g.(held := r.held, avatar := r.avatar, started := r.started, closeRequested := r.closeRequested)
    ensures r.avatar == g.avatar.(pose := r.avatar.pose)
    ensures k == Cheat.EscapeKey ==> !r.started && r.closeRequested && r.held == g.held && r.avatar == g.avatar
    ensures k != Cheat.EscapeKey ==> r.started == g.started && r.closeRequested == g.closeRequested
    ensures k == Cheat.UpKey ==> r.held == g.held.(north := false) && r.avatar.pose == Stance(North)
    ensures k == Cheat.DownKey ==> r.held == g.held.(south := false) && r.avatar.pose == Stance(South)
    ensures k == Cheat.LeftKey ==> r.held == g.held.(west := false) && (if g.avatar.locked then r.avatar.pose == Stance(West) else r.avatar == g.avatar)
    ensures k == Cheat.RightKey ==> r.held == g.held.(east := false) && (if g.avatar.locked then r.avatar.pose == Stance(East) else r.avatar == g.avatar)
    ensures !Cheat.Keeps(k) ==> r == g
  {
    match k
    case UpKey => g.(held := g.held.(north := false), avatar := ReleasePose(g.avatar, North))
    case DownKey => g.(held := g.held.(south := false), avatar := ReleasePose(g.avatar, South))
    case LeftKey => g.(held := g.held.(west := false), avatar := ReleasePose(g.avatar, West))
    case RightKey => g.(held := g.held.(east := false), avatar := ReleasePose(g.avatar, East))
    case EscapeKey => g.(started := false, closeRequested := true)
    case _ => g
  }

  /**
   * A key release: the key part first, then the cheat buffer records the key and, on HESOYAM,
   * hearts are set to 4 and one heart is taken at once.
   */
  function KeyUp(g: State, k: Cheat.Key): (r: State)
    ensures r.cheat != Cheat.Code
    ensures Cheat.KeyUp(g.cheat, k).fired ==> r.hearts == CheatHearts - 1 && r.cheat == []
    ensures !Cheat.KeyUp(g.cheat, k).fired ==> r.hearts == g.hearts && r.scene == g.scene
    ensures !Cheat.KeyUp(g.cheat, k).fired ==> r.cheat == Cheat.KeyUp(g.cheat, k).buffer
    ensures r.held == Release(g, k).held
    ensures !Cheat.KeyUp(g.cheat, k).fired ==> r == Release(g, k).(cheat := Cheat.KeyUp(g.cheat, k).buffer)
    ensures Cheat.KeyUp(g.cheat, k).fired ==>
              r == Release(g, k).(hearts := CheatHearts - 1, cheat := [], scene := g.scene + [Ui(HeartsPanel(CheatHearts - 1))])
    ensures r.packagesFound == g.packagesFound && r.packagesNeeded == g.packagesNeeded
    ensures r.avatar == Release(g, k).avatar && r.started == Release(g, k).started
  {
    var g1 := Release(g, k);
    var step := Cheat.KeyUp(g.cheat, k);
    if step.fired then UpdateHearts(g1.(hearts := CheatHearts)).(cheat := [])
    else g1.(cheat := step.buffer)
  }

  /** Escape re-arms the SPACE latch: afterwards SPACE on the start zone starts a round again. */
  lemma EscapeRearmsSpace(g: State, d: Dice)
    requires ValidDice(d) && OnStart(g.avatar)
    ensures var e := KeyUp(g, Cheat.EscapeKey);
            KeyDown(e, Cheat.SpaceKey, d) == StartNewGame(e.(started := true), d)
  {
  }

  /** The movement the held keys ask for in one frame. */
  function DeltaX(h: Held): (r: real)
    ensures r == WalkSpeed <==> h.east && !h.west
    ensures r == -WalkSpeed <==> h.west && !h.east
    ensures r == 0.0 <==> h.east == h.west
  {
    (if h.east then WalkSpeed else 0.0) - (if h.west then WalkSpeed else 0.0)
  }

  function DeltaY(h: Held): (r: real)
    ensures r == WalkSpeed <==> h.south && !h.north
    ensures r == -WalkSpeed <==> h.north && !h.south
    ensures r == 0.0 <==> h.north == h.south
  {
    (if h.south then WalkSpeed else 0.0) - (if h.north then WalkSpeed else 0.0)
  }

  /**
   * One animation frame: the avatar moves by the held keys' deltas and nothing else changes;
   * with no key held, or both keys of each axis held, it stands still.
   */
  function Frame(g: State): (r: State)
    ensures r == g.(avatar := r.avatar)
    ensures r.avatar == MoveBy(g.avatar, DeltaX(g.held), DeltaY(g.held))
    ensures g.held.north == g.held.south && g.held.east == g.held.west ==> r == g
    ensures InBounds(g.avatar) ==> InBounds(r.avatar)
    ensures FramesInRange(g.avatar) ==> FramesInRange(r.avatar)
    ensures g.held.east && !g.held.west && !g.held.north && !g.held.south && !g.avatar.locked ==>
              r.avatar.pose == Walk(East, g.avatar.rightIndex)
  {
    g.(avatar := MoveBy(g.avatar, DeltaX(g.held), DeltaY(g.held)))
  }

  /** One fence-band tick, when the band is running: fences step left or wrap, every other node stays. */
  function FenceTick(g: State): (r: State)
    ensures !g.fenceRunning ==> r == g
    ensures g.fenceRunning ==> r.scene == MoveFences(g.scene, FenceSpeed)
    ensures r == g.(scene := r.scene) && |r.scene| == |g.scene|
    ensures forall i :: 0 <= i < |g.scene| && !g.scene[i].FenceNode? ==> r.scene[i] == g.scene[i]
    ensures forall i :: 0 <= i < |g.scene| ==> (r.scene[i].FenceNode? <==> g.scene[i].FenceNode?)
    ensures Count(r.scene, IsFenceNode) == Count(g.scene, IsFenceNode)
  {
    CountPointwise(g.scene, MoveFences(g.scene, FenceSpeed), IsFenceNode);
    if g.fenceRunning then g.(scene := MoveFences(g.scene, FenceSpeed)) else g
  }

  /** The frame-lock timer fires: the next movement may advance the walking frame again; the picture and position stay. */
  function FrameLockExpires(g: State): (r: State)
    ensures !r.avatar.locked && r == g.(avatar := r.avatar)
    ensures r.avatar == g.avatar.(locked := r.avatar.locked)
  {
    g.(avatar := g.avatar.(locked := false))
  }
}

=== FILE: geometry.dfy ===
/** Screen constants and the centre-distance collision rule shared by every sprite. */
module Geometry {

  /** Scene width and height in scene units. */
  const W: real := 1920.0
  const H: real := 1080.0

  /** An axis-aligned box: top-left corner (x, y) and size (w, h), as a sprite's bounds in its parent. */
  datatype Box = Box(x: real, y: real, w: real, h: real)

  function Abs(r: real): real {
    if r < 0.0 then -r else r
  }

  function CenterX(b: Box): real {
    b.x + b.w / 2.0
  }

  function CenterY(b: Box): real {
    b.y + b.h / 2.0
  }

  /** Two sprites collide when their centres are closer than a quarter of the summed sizes, strictly, on both axes. */
  predicate Collides(a: Box, b: Box) {
    && Abs(CenterX(a) - CenterX(b)) < (a.w + b.w) / 4.0
    && Abs(CenterY(a) - CenterY(b)) < (a.h + b.h) / 4.0
  }

  /** The hit box: the box scaled by one half about its own centre. */
  function HitBox(b: Box): (r: Box)
    ensures CenterX(r) == CenterX(b) && CenterY(r) == CenterY(b)
    ensures r.w * 2.0 == b.w && r.h * 2.0 == b.h
  {
    Box(CenterX(b) - b.w / 4.0, CenterY(b) - b.h / 4.0, b.w / 2.0, b.h / 2.0)
  }

  /** Open-interval intersection of two boxes on both axes. */
  predicate Overlap(a: Box, b: Box) {
    && a.x < b.x + b.w && b.x < a.x + a.w
    && a.y < b.y + b.h && b.y < a.y + a.h
  }

  /** The collision rule is exactly the overlap of the two half-size hit boxes. */
  lemma CollidesIffHitBoxesOverlap(a: Box, b: Box)
    ensures Collides(a, b) <==> Overlap(HitBox(a), HitBox(b))
  {
  }

  /** Collision does not depend on which box is the player. */
  lemma CollidesSymmetric(a: Box, b: Box)
    ensures Collides(a, b) <==> Collides(b, a)
  {
  }
}

=== FILE: invariant.dfy ===
/**
 * The invariant every reachable controller state keeps, and one preservation lemma per event:
 * the avatar stays on the screen with valid walking frames, the round stays within 0..3, hearts
 * never exceed three, the cheat buffer never rests on the full code, the package counters stay
 * consistent, and every obstacle in the scene is untouched and on its row.
 */
module Invariant {
  import opened Geometry
  import opened Sprites
  import opened Rounds
  import opened Player
  import opened Fences
  import opened Obstacles
  import opened Game
  import Cheat

  /**
   * The package accounting: the cumulative found count plus the good obstacles still on the
   * screen never exceeds the packages needed so far.
   */
  predicate Valid(g: State) {
    && InBounds(g.avatar) && FramesInRange(g.avatar)
    && 0 <= g.round <= MaxRound
    && g.hearts <= StartHearts
    && g.cheat != Cheat.Code && Cheat.OverCodeLetters(g.cheat)
    && 0 <= g.foundThisRound <= g.packagesFound
    && g.packagesFound + Count(g.scene, IsGoodNode) <= g.packagesNeeded
    && AllPristine(g.scene)
  }

  /** The events the controller reacts to; the ones that may start a round carry the round's random choices. */
  datatype Event =
    | Press(key: Cheat.Key, dice: Dice)
    | Lift(key: Cheat.Key)
    | AnimationFrame
    | FenceStep
    | ObstacleStep(id: nat)
    | LockExpiry
    | NextClicked(dice: Dice)

  predicate WellFormed(e: Event) {
    (e.Press? || e.NextClicked?) ==> ValidDice(e.dice)
  }

  /** The controller's reaction to one event. The NEXT button can only be clicked while it is on the screen. */
  function Step(g: State, e: Event): State
    requires WellFormed(e)
  {
    match e
    case Press(k, d) => KeyDown(g, k, d)
    case Lift(k) => KeyUp(g, k)
    case AnimationFrame => Frame(g)
    case FenceStep => FenceTick(g)
    case ObstacleStep(id) => TickObstacle(g, id)
    case LockExpiry => FrameLockExpires(g)
    case NextClicked(d) => if Ui(NextButton) in g.scene then PressNext(g, d) else g
  }

  /** The controller's reaction to a sequence of events, in order. */
  function Run(g: State, es: seq<Event>): State
    requires forall i :: 0 <= i < |es| ==> WellFormed(es[i])
    decreases |es|
  {
    if es == [] then g else Run(Step(g, es[0]), es[1..])
  }

  /** The start screen satisfies the invariant, for any avatar picture that fits on the screen. */
  lemma InitialIsValid(w: real, h: real)
    requires 0.0 < w <= W && 0.0 < h <= H
    ensures Valid(Initial(w, h))
  {
    var g := Initial(w, h);
    CountZero(g.scene, IsGoodNode);
  }

  /** Every new round satisfies the invariant, whatever the previous round left behind, as long as no more packages were found than needed. */
  lemma NewRoundIsValid(g: State, d: Dice)
    requires ValidDice(d) && Valid(g)
    ensures Valid(StartNewGame(g, d))
  {
  }

  lemma KeyDownKeepsValid(g: State, k: Cheat.Key, d: Dice)
    requires ValidDice(d) && Valid(g)
    ensures Valid(KeyDown(g, k, d))
  {
  }

  /** A picture change alone keeps the avatar's box and walking frames. */
  lemma PoseOnly(a: Avatar, b: Avatar)
    requires b == a.(pose := b.pose) || b == a.(locked := b.locked)
    ensures InBounds(a) ==> InBounds(b)
    ensures FramesInRange(a) ==> FramesInRange(b)
  {
    assert forall d: Dir :: FrameIndex(b, d) == FrameIndex(a, d);
  }

  lemma KeyUpKeepsValid(g: State, k: Cheat.Key)
    requires Valid(g)
    ensures Valid(KeyUp(g, k))
  {
    var g1 := Release(g, k);
    PoseOnly(g.avatar, g1.avatar);
    var step := Cheat.KeyUp(g.cheat, k);
    if step.fired {
      var r := UpdateHearts(g1.(hearts := CheatHearts));
      assert KeyUp(g, k) == r.(cheat := []);
    }
  }

  lemma FrameKeepsValid(g: State)
    requires Valid(g)
    ensures Valid(Frame(g))
  {
  }

  lemma FenceTickKeepsValid(g: State)
    requires Valid(g)
    ensures Valid(FenceTick(g))
  {
    var r := FenceTick(g);
    CountPointwise(g.scene, r.scene, IsGoodNode);
  }

  lemma LockExpiryKeepsValid(g: State)
    requires Valid(g)
    ensures Valid(FrameLockExpires(g))
  {
    PoseOnly(g.avatar, FrameLockExpires(g).avatar);
  }

  /** Replacing one node by a pristine node of the same goodness keeps the scene pristine and its good count. */
  lemma ReplaceKeepsAccounting(s: Scene, i: nat, n: Node)
    requires i < |s| && AllPristine(s) && Pristine(n) && (IsGoodNode(n) <==> IsGoodNode(s[i]))
    ensures AllPristine(s[i := n]) && Count(s[i := n], IsGoodNode) == Count(s, IsGoodNode)
  {
    CountUpdate(s, i, n, IsGoodNode);
    forall m | m in s[i := n]
      ensures Pristine(m)
    {
      var j :| 0 <= j < |s| && s[i := n][j] == m;
      if j != i {
        assert m in s;
      }
    }
  }

  /**
   * After the obstacle at position i is replaced by its touched copy n and the scene is then
   * otherwise only filtered or given new interface nodes (t), removing n's id leaves only
   * untouched obstacles.
   */
  lemma RemoveTouchedKeepsPristine(s: Scene, i: nat, n: Node, t: Scene)
    requires i < |s| && n.ObstacleNode? && AllPristine(s)
    requires forall m :: m in t ==> m in s[i := n] || m.Ui?
    ensures AllPristine(RemoveObstacle(t, n.obstacle.id))
  {
  }

  /** Removing an id never adds good obstacles; removing the good obstacle at position i takes one away. */
  lemma RemoveCount(s: Scene, id: nat, i: nat)
    requires i < |s|
    ensures Count(RemoveObstacle(s, id), IsGoodNode) <= Count(s, IsGoodNode)
    ensures IsGoodNode(s[i]) && s[i].obstacle.id == id ==> Count(RemoveObstacle(s, id), IsGoodNode) + 1 <= Count(s, IsGoodNode)
  {
    CountKeep(s, NotObstacleWithId(id), IsGoodNode);
    if IsGoodNode(s[i]) && s[i].obstacle.id == id {
      CountKeepDrops(s, NotObstacleWithId(id), IsGoodNode, i);
    }
  }

  /** A step without touching the player moves or wraps the obstacle and keeps it on its row. */
  lemma TickAwayKeepsValid(g: State, i: nat)
    requires Valid(g) && i < |g.scene| && g.scene[i].ObstacleNode?
    requires !Collides(AvatarBox(g.avatar), ObstacleBox(Stepped(g, i)))
    ensures Valid(TickAt(g, i))
  {
    var moved := Stepped(g, i);
    assert g.scene[i] in g.scene;
    var n := if moved.x + moved.w < 0.0 then ObstacleNode(moved.(x := ResetX, y := moved.homeY)) else ObstacleNode(moved);
    ReplaceKeepsAccounting(g.scene, i, n);
    assert TickAt(g, i) == g.(scene := g.scene[i := n]);
  }

  /** Touching a good obstacle: one package found, and it leaves the screen. */
  lemma TouchGoodKeepsValid(g: State, i: nat)
    requires Valid(g) && i < |g.scene| && g.scene[i].ObstacleNode? && IsGood(g.scene[i].obstacle)
    ensures Valid(Touch(g, i, Stepped(g, i)))
  {
    var moved := Stepped(g, i);
    assert g.scene[i] in g.scene;
    var n := ObstacleNode(moved.(countedPackages := true));
    var s := g.scene[i := n];
    CountUpdate(g.scene, i, n, IsGoodNode);
    RemoveCount(s, moved.id, i);
    RemoveTouchedKeepsPristine(g.scene, i, n, s);
    assert Touch(g, i, moved).scene == RemoveObstacle(s, moved.id);
  }

  /** Touching a bad obstacle: one heart lost, and it leaves the screen. */
  lemma TouchBadKeepsValid(g: State, i: nat)
    requires Valid(g) && i < |g.scene| && g.scene[i].ObstacleNode? && !IsGood(g.scene[i].obstacle)
    ensures Valid(Touch(g, i, Stepped(g, i)))
  {
    assert g.scene[i] in g.scene;
    TouchBadFrame(g, i);
    LosingHeartKeepsValid(g, Touch(g, i, Stepped(g, i)), i);
  }

  /**
   * The state after a bad touch is valid: the obstacle is removed and either a hearts picture
   * is added or only interface nodes remain.
   */
  lemma LosingHeartKeepsValid(g: State, r: State, i: nat)
    requires Valid(g) && i < |g.scene| && g.scene[i].ObstacleNode?
    requires var rest := RemoveObstacle(g.scene, g.scene[i].obstacle.id);
             && (g.hearts >= 1 ==>
                   r == g.(badObstacle := g.badObstacle + 1, hearts := g.hearts - 1, scene := rest + [Ui(HeartsPanel(g.hearts - 1))]))
             && (g.hearts < 1 ==>
                   && r == g.(badObstacle := g.badObstacle + 1, hearts := g.hearts - 1, fenceRunning := false, scene := r.scene)
                   && GameOverScene(g.scene, g.packagesLabel, r.scene))
    ensures Valid(r)
  {
    var id := g.scene[i].obstacle.id;
    var rest := RemoveObstacle(g.scene, id);
    RemoveCount(g.scene, id, i);
    if g.hearts >= 1 {
      CountConcat(rest, [Ui(HeartsPanel(g.hearts - 1))], IsGoodNode);
    } else {
      assert forall n :: n in r.scene ==> n.Ui?;
      CountZero(r.scene, IsGoodNode);
    }
  }

  lemma ObstacleStepKeepsValid(g: State, id: nat)
    requires Valid(g)
    ensures Valid(TickObstacle(g, id))
  {
    match FindObstacle(g.scene, id)
    case None =>
    case Some(i) =>
      if Collides(AvatarBox(g.avatar), ObstacleBox(Stepped(g, i))) {
        if IsGood(g.scene[i].obstacle) {
          TouchGoodKeepsValid(g, i);
        } else {
          TouchBadKeepsValid(g, i);
        }
      } else {
        TickAwayKeepsValid(g, i);
      }
  }

  lemma NextKeepsValid(g: State, d: Dice)
    requires ValidDice(d) && Valid(g) && Ui(NextButton) in g.scene
    ensures Valid(PressNext(g, d))
  {
    if !ReadyForNext(g) {
      CountConcat(g.scene, [Ui(Dialogue(NotReadyLines))], IsGoodNode);
    }
  }

  /** Every event keeps the invariant. */
  lemma StepKeepsValid(g: State, e: Event)
    requires WellFormed(e) && Valid(g)
    ensures Valid(Step(g, e))
  {
    match e
    case Press(k, d) => KeyDownKeepsValid(g, k, d);
    case Lift(k) => KeyUpKeepsValid(g, k);
    case AnimationFrame => FrameKeepsValid(g);
    case FenceStep => FenceTickKeepsValid(g);
    case ObstacleStep(id) => ObstacleStepKeepsValid(g, id);
    case LockExpiry => LockExpiryKeepsValid(g);
    case NextClicked(d) =>
      if Ui(NextButton) in g.scene {
        NextKeepsValid(g, d);
      }
  }

  /** Every state reachable from the start screen satisfies the invariant. */
  lemma {:induction false} RunKeepsValid(g: State, es: seq<Event>)
    requires forall i :: 0 <= i < |es| ==> WellFormed(es[i])
    requires Valid(g)
    ensures Valid(Run(g, es))
    decreases |es|
  {
    if es != [] {
      StepKeepsValid(g, es[0]);
      RunKeepsValid(Step(g, es[0]), es[1..]);
    }
  }

  /**
   * The NEXT gate, read through the invariant: when the packages needed equal the packages found,
   * no good obstacle is left on the screen.
   */
  lemma ReadyMeansAllCollected(g: State)
    requires Valid(g) && ReadyForNext(g)
    ensures forall i :: 0 <= i < |g.scene| ==> !IsGoodNode(g.scene[i])
  {
    CountZero(g.scene, IsGoodNode);
  }
}

=== FILE: obstacles.dfy ===
/**
 * The obstacle field: the 7 x 6 spawn grid, good/bad assignment over a shuffled cell order,
 * and finding, removing and clearing obstacles in the scene.
 */
module Obstacles {
  import opened Geometry
  import opened Sprites

  const Columns: nat := 7
  const Rows: nat := 6
  const CellCount: nat := Columns * Rows
  const BadWidth: real := 190.0
  const BadHeight: real := 100.0
  const ColumnSpacing: real := 100.0
  const RowSpacing: real := 60.0

  /** Per-tick leftward step, and where an obstacle that scrolled off-left reappears. */
  const ObstacleSpeed: real := 2.0
  const ResetX: real := W + 50.0

  /** Number of pictures in the obstacle table: six bad ones followed by the three good ones. */
  const ImageCount: nat := 9

  /** Natural size of a picture, as it is before any resizing. */
  datatype Size = Size(w: real, h: real)

  /** Spawn position of grid cell p: column p % 7 and row p / 7, rows counted upwards from the bottom one. */
  function CellX(p: nat): real {
    W + ((p % Columns) as real) * (BadWidth + ColumnSpacing)
  }

  function CellY(p: nat): real {
    H - BadHeight - 100.0 - ((p / Columns) as real) * (BadHeight + RowSpacing)
  }

  /** Every cell lies off-screen to the right, on one of the six rows 880, 720, ..., 80. */
  lemma CellLayout(p: nat)
    requires p < CellCount
    ensures CellX(p) == 1920.0 + 290.0 * ((p % 7) as real) && CellX(p) >= W
    ensures CellY(p) == 880.0 - 160.0 * ((p / 7) as real) && 80.0 <= CellY(p) <= 880.0
  {
  }

  /** Different cells have different positions. */
  lemma CellLayoutInjective(p: nat, q: nat)
    requires p < CellCount && q < CellCount
    requires CellX(p) == CellX(q) && CellY(p) == CellY(q)
    ensures p == q
  {
    assert ((p % 7) as real) * 290.0 == ((q % 7) as real) * 290.0;
    assert p % 7 == q % 7;
    assert ((p / 7) as real) * 160.0 == ((q / 7) as real) * 160.0;
    assert p / 7 == q / 7;
  }

  /** A cell order is a permutation of the cells 0..41, as a shuffle of that list produces. */
  predicate IsCellOrder(cells: seq<nat>) {
    && |cells| == CellCount
    && (forall k :: 0 <= k < |cells| ==> cells[k] < CellCount)
    && (forall j, k :: 0 <= j < k < |cells| ==> cells[j] != cells[k])
  }

  /** A shuffled cell order visits every cell, so every grid cell receives exactly one obstacle. */
  lemma CellOrderCoversGrid(cells: seq<nat>)
    requires IsCellOrder(cells)
    ensures forall c :: 0 <= c < CellCount ==> c in cells
  {
    DistinctBelowCoversAll(cells, CellCount);
  }

  lemma DistinctBelowCoversAll(s: seq<nat>, n: nat)
    requires |s| == n
    requires forall k :: 0 <= k < |s| ==> s[k] < n
    requires forall j, k :: 0 <= j < k < |s| ==> s[j] != s[k]
    ensures forall c :: 0 <= c < n ==> c in s
  {
    var values := set k | 0 <= k < |s| :: s[k];
    DistinctValuesCard(s);
    BelowCard(n);
    forall c | 0 <= c < n
      ensures c in s
    {
      if c !in s {
        assert values <= Below(n) - {c};
        SubsetCard(values, Below(n) - {c});
        assert false;
      }
    }
  }

  function Below(n: nat): (r: set<nat>)
    ensures forall x :: x in r <==> 0 <= x < n
  {
    if n == 0 then {} else Below(n - 1) + {n - 1}
  }

  lemma {:induction false} BelowCard(n: nat)
    ensures |Below(n)| == n
  {
    if n > 0 {
      BelowCard(n - 1);
    }
  }

  lemma {:induction false} DistinctValuesCard(s: seq<nat>)
    requires forall j, k :: 0 <= j < k < |s| ==> s[j] != s[k]
    ensures |set k | 0 <= k < |s| :: s[k]| == |s|
  {
    if s != [] {
      var init := s[..|s| - 1];
      DistinctValuesCard(init);
      var before := set k | 0 <= k < |init| :: init[k];
      assert (set k | 0 <= k < |s| :: s[k]) == before + {s[|s| - 1]};
      assert s[|s| - 1] !in before;
    }
  }

  lemma {:induction false} SubsetCard(a: set<nat>, b: set<nat>)
    requires a <= b
    ensures |a| <= |b|
    decreases |b|
  {
    if a != {} {
      var x :| x in a;
      SubsetCard(a - {x}, b - {x});
    }
  }

  /** The obstacle placed in `cell`: bad pictures are resized to 190 x 100, good ones keep their natural size. */
  function SpawnOne(id: nat, cell: nat, image: nat, natural: seq<Size>): (o: Obstacle)
    requires image < |natural|
  {
    var w := if IsGoodImage(image) then natural[image].w else BadWidth;
    var h := if IsGoodImage(image) then natural[image].h else BadHeight;
    Obstacle(id, image, CellX(cell), CellY(cell), w, h, CellY(cell), false, false)
  }

  /**
   * The spawn loop over the shuffled cells. `spawned` is the number of good obstacles placed so far;
   * while it is below `goodCount` the next cell gets good picture 6 + goodDraws[k], otherwise bad
   * picture badDraws[k]. Ids are handed out consecutively from `id`.
   */
  function Spawn(cells: seq<nat>, goodCount: nat, spawned: nat, goodDraws: seq<nat>, badDraws: seq<nat>,
                 natural: seq<Size>, id: nat): (r: seq<Obstacle>)
    requires |goodDraws| == |cells| && |badDraws| == |cells| && |natural| == ImageCount
    requires forall k :: 0 <= k < |cells| ==> goodDraws[k] < 3 && badDraws[k] < 6
    ensures |r| == |cells|
    ensures forall k :: 0 <= k < |r| ==>
              && r[k].id == id + k && r[k].image < ImageCount
              && r[k].x == CellX(cells[k]) && r[k].y == CellY(cells[k]) && r[k].homeY == r[k].y
              && !r[k].counted && !r[k].countedPackages
    ensures forall k :: 0 <= k < |r| ==> (IsGood(r[k]) <==> spawned + k < goodCount)
    ensures forall k :: 0 <= k < |r| && !IsGood(r[k]) ==> r[k].w == BadWidth && r[k].h == BadHeight
    ensures forall k :: 0 <= k < |r| && IsGood(r[k]) ==> r[k].w == natural[r[k].image].w && r[k].h == natural[r[k].image].h
    decreases |cells|
  {
    if cells == [] then []
    else
      var good := spawned < goodCount;
      var image := if good then 6 + goodDraws[0] else badDraws[0];
      [SpawnOne(id, cells[0], image, natural)] +
      Spawn(cells[1..], goodCount, if good then spawned + 1 else spawned, goodDraws[1..], badDraws[1..], natural, id + 1)
  }

  /** The obstacles as scene nodes, in spawn order. */
  function AsNodes(obstacles: seq<Obstacle>): (r: Scene)
    ensures |r| == |obstacles|
    ensures forall k :: 0 <= k < |r| ==> r[k] == ObstacleNode(obstacles[k])
  {
    seq(|obstacles|, k requires 0 <= k < |obstacles| => ObstacleNode(obstacles[k]))
  }

  /** A scene whose first m nodes are exactly its good obstacles holds min(m, length) good obstacles. */
  lemma {:induction false} GoodPrefixCount(s: Scene, m: nat)
    requires forall k :: 0 <= k < |s| ==> (IsGoodNode(s[k]) <==> k < m)
    ensures Count(s, IsGoodNode) == if m <= |s| then m else |s|
  {
    if s != [] {
      assert forall k :: 0 <= k < |s[1..]| ==> s[1..][k] == s[k + 1];
      GoodPrefixCount(s[1..], if m == 0 then 0 else m - 1);
    }
  }

  /** The random choices of one spawn: the shuffled cell order, one good and one bad picture draw per cell, and the natural picture sizes. */
  datatype Dice = Dice(cells: seq<nat>, goodDraws: seq<nat>, badDraws: seq<nat>, natural: seq<Size>)

  predicate ValidDice(d: Dice) {
    && IsCellOrder(d.cells)
    && |d.goodDraws| == CellCount && |d.badDraws| == CellCount && |d.natural| == ImageCount
    && (forall k :: 0 <= k < CellCount ==> d.goodDraws[k] < 3 && d.badDraws[k] < 6)
  }

  /** A just-spawned obstacle: off-screen right, on one of the six rows, not yet counted, bad ones resized to 190 x 100. */
  predicate FreshObstacle(n: Node) {
    && n.ObstacleNode?
    && var o := n.obstacle;
    && o.x >= W && 80.0 <= o.y <= 880.0 && o.homeY == o.y && !o.counted && !o.countedPackages
    && (!IsGood(o) ==> o.w == 190.0 && o.h == 100.0)
  }

  /** An obstacle still in play: no counted flag set yet, and on its own row. Every other node is trivially pristine. */
  predicate Pristine(n: Node) {
    n.ObstacleNode? ==> !n.obstacle.counted && !n.obstacle.countedPackages && n.obstacle.y == n.obstacle.homeY
  }

  predicate AllPristine(s: Scene) {
    forall n :: n in s ==> Pristine(n)
  }

  /** The node is an obstacle placed at grid cell c. */
  predicate InCell(n: Node, c: nat) {
    n.ObstacleNode? && n.obstacle.x == CellX(c) && n.obstacle.y == CellY(c)
  }

  /** Some node of s from position `from` on is an obstacle in grid cell c. */
  predicate CellFilled(s: Scene, from: nat, c: nat) {
    exists k :: from <= k < |s| && InCell(s[k], c)
  }

  /** Appending more nodes after a scene keeps its filled cells filled. */
  lemma FilledStaysFilled(s: Scene, t: Scene, from: nat)
    ensures forall c :: CellFilled(s, from, c) ==> CellFilled(s + t, from, c)
  {
    forall c | CellFilled(s, from, c)
      ensures CellFilled(s + t, from, c)
    {
      var k :| from <= k < |s| && InCell(s[k], c);
      assert (s + t)[k] == s[k];
    }
  }

  /** Appending keeps every cell filled by the appended part, now found after the old scene. */
  lemma AppendFills(s: Scene, nodes: Scene)
    requires forall c :: 0 <= c < CellCount ==> CellFilled(nodes, 0, c)
    ensures forall c :: 0 <= c < CellCount ==> CellFilled(s + nodes, |s|, c)
  {
    forall c | 0 <= c < CellCount
      ensures CellFilled(s + nodes, |s|, c)
    {
      assert CellFilled(nodes, 0, c);
      var k :| 0 <= k < |nodes| && InCell(nodes[k], c);
      assert (s + nodes)[|s| + k] == nodes[k];
    }
  }

  lemma AppendPristine(s: Scene, nodes: Scene)
    ensures AllPristine(s + nodes) <==> AllPristine(s) && AllPristine(nodes)
  {
  }

  /** The 42 obstacles of a round, one per grid cell, exactly `quota` of them good. */
  function SpawnRound(d: Dice, quota: nat, id: nat): (r: Scene)
    requires ValidDice(d) && quota <= CellCount
    ensures |r| == CellCount
    ensures Count(r, IsGoodNode) == quota
    ensures forall k :: 0 <= k < |r| ==> FreshObstacle(r[k])
    ensures AllPristine(r)
    ensures forall c :: 0 <= c < CellCount ==> CellFilled(r, 0, c)
  {
    var spawned := Spawn(d.cells, quota, 0, d.goodDraws, d.badDraws, d.natural, id);
    var nodes := AsNodes(spawned);
    GoodPrefixCount(nodes, quota);
    SpawnedAreFresh(d, quota, id, nodes);
    SpawnedFillGrid(d, quota, id, nodes);
    nodes
  }

  /** A round's obstacles take consecutive identities from the given one, so no two of them share one. */
  lemma SpawnRoundIds(d: Dice, quota: nat, id: nat)
    requires ValidDice(d) && quota <= CellCount
    ensures var r := SpawnRound(d, quota, id);
            forall k :: 0 <= k < |r| ==> r[k].ObstacleNode? && r[k].obstacle.id == id + k
  {
    var spawned := Spawn(d.cells, quota, 0, d.goodDraws, d.badDraws, d.natural, id);
    assert SpawnRound(d, quota, id) == AsNodes(spawned);
  }

  lemma SpawnedAreFresh(d: Dice, quota: nat, id: nat, nodes: Scene)
    requires ValidDice(d)
    requires nodes == AsNodes(Spawn(d.cells, quota, 0, d.goodDraws, d.badDraws, d.natural, id))
    ensures forall k :: 0 <= k < |nodes| ==> FreshObstacle(nodes[k])
  {
    forall k | 0 <= k < |nodes|
      ensures FreshObstacle(nodes[k])
    {
      CellLayout(d.cells[k]);
    }
  }

  lemma SpawnedFillGrid(d: Dice, quota: nat, id: nat, nodes: Scene)
    requires ValidDice(d)
    requires nodes == AsNodes(Spawn(d.cells, quota, 0, d.goodDraws, d.badDraws, d.natural, id))
    ensures forall c :: 0 <= c < CellCount ==> CellFilled(nodes, 0, c)
  {
    CellOrderCoversGrid(d.cells);
    forall c | 0 <= c < CellCount
      ensures CellFilled(nodes, 0, c)
    {
      assert c in d.cells;
      var k :| 0 <= k < CellCount && d.cells[k] == c;
      assert InCell(nodes[k], c);
    }
  }

  predicate IsObstacleNode(n: Node) {
    n.ObstacleNode?
  }

  predicate NotObstacle(n: Node) {
    !n.ObstacleNode?
  }

  function NotObstacleWithId(id: nat): Node -> bool {
    (n: Node) => !(n.ObstacleNode? && n.obstacle.id == id)
  }

  /** Removes every obstacle and keeps every other node, in order. */
  function ClearObstacles(s: Scene): (r: Scene)
    ensures forall i :: 0 <= i < |r| ==> !r[i].ObstacleNode?
    ensures forall n :: n in r <==> n in s && !n.ObstacleNode?
  {
    var r := Keep(s, NotObstacle);
    assert forall i :: 0 <= i < |r| ==> r[i] in r;
    r
  }

  /** Detaches the obstacle with this id from the scene; nothing else moves. */
  function RemoveObstacle(s: Scene, id: nat): (r: Scene)
    ensures forall i :: 0 <= i < |r| ==> !(r[i].ObstacleNode? && r[i].obstacle.id == id)
    ensures forall n :: n in r <==> n in s && !(n.ObstacleNode? && n.obstacle.id == id)
  {
    var r := Keep(s, NotObstacleWithId(id));
    assert forall i :: 0 <= i < |r| ==> r[i] in r;
    r
  }

  /** Removing an id ignores what the obstacle holding it looked like. */
  lemma RemoveOverwrite(s: Scene, i: nat, n: Node, id: nat)
    requires i < |s| && s[i].ObstacleNode? && s[i].obstacle.id == id && n.ObstacleNode? && n.obstacle.id == id
    ensures RemoveObstacle(s[i := n], id) == RemoveObstacle(s, id)
  {
    KeepOverwrite(s, i, n, NotObstacleWithId(id));
  }

  /** Removing an id passes over an interface node appended after the scene. */
  lemma RemoveBeforeUi(s: Scene, u: Node, id: nat)
    requires u.Ui?
    ensures RemoveObstacle(s + [u], id) == RemoveObstacle(s, id) + [u]
  {
    KeepConcat(s, [u], NotObstacleWithId(id));
    assert [u][1..] == [];
  }

  /** The position of the first obstacle with this id, if the scene holds one. */
  function FindObstacle(s: Scene, id: nat): (r: Option<nat>)
    ensures r.Some? ==> r.value < |s| && s[r.value].ObstacleNode? && s[r.value].obstacle.id == id
    ensures r.Some? ==> forall j :: 0 <= j < r.value ==> !(s[j].ObstacleNode? && s[j].obstacle.id == id)
    ensures r.None? <==> forall i :: 0 <= i < |s| ==> !(s[i].ObstacleNode? && s[i].obstacle.id == id)
  {
    if s == [] then None
    else if s[0].ObstacleNode? && s[0].obstacle.id == id then Some(0)
    else
      var rest := FindObstacle(s[1..], id);
      assert forall i :: 1 <= i < |s| ==> s[i] == s[1..][i - 1];
      if rest.Some? then Some(rest.value + 1) else None
  }
  /** The first position holding the id is the one FindObstacle returns. */
  lemma FindObstacleFirst(s: Scene, id: nat, i: nat)
    requires i < |s| && s[i].ObstacleNode? && s[i].obstacle.id == id
    requires forall j :: 0 <= j < i ==> !(s[j].ObstacleNode? && s[j].obstacle.id == id)
    ensures FindObstacle(s, id) == Some(i)
  {
    var k := FindObstacle(s, id);
    assert k.Some?;
  }

}

=== FILE: player.dfy ===
/** The player avatar: position, walking-frame selection with a frame lock, and the all-or-nothing screen bounds. */
module Player {
  import opened Geometry

  datatype Dir = North | South | West | East

  /** The picture shown: a standing pose facing a direction, or walking frame `frame` of a direction's cycle. */
  datatype Pose = Stance(facing: Dir) | Walk(heading: Dir, frame: nat)

  /** Each direction's walking cycle has two pictures (left foot, right foot). */
  const WalkFrames: nat := 2

  /**
   * The avatar's top-left corner (x, y) and size (w, h); the next walking frame of each direction;
   * and `locked`, set while a frame change is pending so that the frame does not advance again.
   */
  datatype Avatar = Avatar(
    x: real, y: real, w: real, h: real, pose: Pose,
    upIndex: nat, downIndex: nat, leftIndex: nat, rightIndex: nat, locked: bool)

  function AvatarBox(a: Avatar): Box {
    Box(a.x, a.y, a.w, a.h)
  }

  /** The whole box lies on the screen. */
  predicate InBounds(a: Avatar) {
    0.0 <= a.x && a.x + a.w <= W && 0.0 <= a.y && a.y + a.h <= H
  }

  function FrameIndex(a: Avatar, d: Dir): nat {
    match d
    case North => a.upIndex
    case South => a.downIndex
    case West => a.leftIndex
    case East => a.rightIndex
  }

  predicate FramesInRange(a: Avatar) {
    forall d: Dir :: FrameIndex(a, d) < WalkFrames
  }

  /** Everything but the position is equal. */
  predicate SameLook(a: Avatar, b: Avatar) {
    a.(x := b.x, y := b.y) == b
  }

  /** Relocates the avatar so that its centre is (x, y), but only if the whole box then fits on the screen. */
  function MoveTo(a: Avatar, x: real, y: real): (r: Avatar)
    ensures SameLook(a, r) && (FramesInRange(a) ==> FramesInRange(r))
    ensures (CenterX(AvatarBox(r)) == x && CenterY(AvatarBox(r)) == y && InBounds(r)) || r == a
    ensures InBounds(a) ==> InBounds(r)
  {
    var cx := a.w / 2.0;
    var cy := a.h / 2.0;
    var r := if x - cx >= 0.0 && x + cx <= W && y - cy >= 0.0 && y + cy <= H then a.(x := x - cx, y := y - cy) else a;
    assert forall d: Dir :: FrameIndex(r, d) == FrameIndex(a, d);
    r
  }

  /** A move is taken exactly when the box centred on the target lies on the screen; otherwise nothing moves. */
  lemma MoveToAllOrNothing(a: Avatar, x: real, y: real)
    ensures var target := a.(x := x - a.w / 2.0, y := y - a.h / 2.0);
            && (InBounds(target) ==> MoveTo(a, x, y) == target)
            && (!InBounds(target) ==> MoveTo(a, x, y) == a)
  {
  }

  /** The direction whose walking cycle a move (dx, dy) plays: vertical before horizontal, up before down, left before right. */
  function Heading(dx: real, dy: real): (d: Dir)
    requires dx != 0.0 || dy != 0.0
    ensures d == North <==> dy < 0.0
    ensures d == South <==> dy > 0.0
    ensures d == West <==> dy == 0.0 && dx < 0.0
    ensures d == East <==> dy == 0.0 && dx > 0.0
  {
    if dy < 0.0 then North
    else if dy > 0.0 then South
    else if dx < 0.0 then West
    else East
  }

  /** Shows the next frame of direction d, steps that direction's cycle and takes the frame lock. */
  function Advance(a: Avatar, d: Dir): Avatar {
    var next := (FrameIndex(a, d) + 1) % WalkFrames;
    var b := a.(pose := Walk(d, FrameIndex(a, d)), locked := true);
    match d
    case North => b.(upIndex := next)
    case South => b.(downIndex := next)
    case West => b.(leftIndex := next)
    case East => b.(rightIndex := next)
  }

  /**
   * One movement step by (dx, dy). The target centre is computed from the raw deltas; the frame
   * advances only when the lock is free; the position changes only if the whole box still fits.
   */
  function MoveBy(a: Avatar, dx: real, dy: real): (r: Avatar)
    ensures dx == 0.0 && dy == 0.0 ==> r == a
    ensures a.locked ==> r.pose == a.pose && r.locked && forall d: Dir :: FrameIndex(r, d) == FrameIndex(a, d)
    ensures !a.locked && (dx != 0.0 || dy != 0.0) ==>
              var d := Heading(dx, dy);
              && r.locked && r.pose == Walk(d, FrameIndex(a, d))
              && FrameIndex(r, d) == (FrameIndex(a, d) + 1) % WalkFrames
              && forall e: Dir :: e != d ==> FrameIndex(r, e) == FrameIndex(a, e)
    ensures FramesInRange(a) ==> FramesInRange(r)
    ensures InBounds(a) ==> InBounds(r)
    ensures r.w == a.w && r.h == a.h
    ensures dx != 0.0 || dy != 0.0 ==>
              ((r.x == a.x + dx && r.y == a.y + dy) <==> InBounds(a.(x := a.x + dx, y := a.y + dy)))
    ensures (r.x == a.x && r.y == a.y) || (r.x == a.x + dx && r.y == a.y + dy)
  {
    if dx == 0.0 && dy == 0.0 then a
    else
      var x := a.w / 2.0 + a.x + dx;
      var y := a.h / 2.0 + a.y + dy;
      var stepped := if a.locked then a else Advance(a, Heading(dx, dy));
      MoveTo(stepped, x, y)
  }

  /** The standing picture set when a direction key is released: always for up and down, only while locked for left and right. */
  function ReleasePose(a: Avatar, d: Dir): (r: Avatar)
    ensures r == a.(pose := r.pose)
    ensures r.pose != a.pose ==> r.pose == Stance(d)
    ensures r.pose == Stance(d) <== d == North || d == South || a.locked
    ensures (d == West || d == East) && !a.locked ==> r == a
  {
    if d == North || d == South || a.locked then a.(pose := Stance(d)) else a
  }

  /** The start zone in front of the house on the start screen, judged by the top-left corner. */
  predicate OnStart(a: Avatar) {
    a.x > 1550.0 && a.y > 350.0 && a.y < 500.0
  }
}

=== FILE: rounds.dfy ===
/** Round numbering: the cap at round 3 and the per-round quota of good obstacles. */
module Rounds {

  const MaxRound: int := 3

  /** The stored round as the getter and the setter leave it: anything from 3 upwards becomes 3. */
  function Clamp(round: int): (r: int)
    ensures r <= MaxRound
    ensures r == round <==> round <= MaxRound
    ensures r != round ==> r == MaxRound
  {
    if round >= MaxRound then MaxRound else round
  }

  /** Clamping twice is clamping once. */
  lemma ClampIdempotent(round: int)
    ensures Clamp(Clamp(round)) == Clamp(round)
  {
  }

  /** Good obstacles spawned for a round: 7, 5 and 3 in rounds 1 to 3, none otherwise. */
  function GoodCount(round: int): (n: nat)
    ensures n == 7 <==> round == 1
    ensures n == 5 <==> round == 2
    ensures n == 3 <==> round == 3
    ensures n == 0 <==> round != 1 && round != 2 && round != 3
  {
    if round == 1 then 7 else if round == 2 then 5 else if round == 3 then 3 else 0
  }

  /** Read through the clamping getter, every round from 3 upwards gets the round-3 quota, and later rounds never ask for more. */
  lemma QuotaOfClampedRound(round: int)
    ensures round >= 3 ==> GoodCount(Clamp(round)) == 3
    ensures 1 <= round ==> GoodCount(Clamp(round + 1)) <= GoodCount(Clamp(round))
    ensures GoodCount(Clamp(round)) <= 7
  {
  }
}

=== FILE: sprites.dfy ===
/** The sprites of the scene graph as tagged records, and order-preserving filtering and counting over a scene. */
module Sprites {
  import opened Geometry

  datatype Option<T> = None | Some(value: T)

  /** One tile of the scrolling fence band; `w` is its image width. */
  datatype Fence = Fence(x: real, y: real, w: real)

  /**
   * An obstacle sprite. `image` is the index of its picture in the obstacle image table
   * (index i is the file Obstacle{i+1}); `homeY` is the row it was spawned on, which a wrap
   * returns it to; `counted` and `countedPackages` guard the bad and good scoring.
   */
  datatype Obstacle = Obstacle(
    id: nat, image: nat, x: real, y: real, w: real, h: real, homeY: real,
    counted: bool, countedPackages: bool)

  /** The informative widgets and dialogue bubbles the game places in the scene. */
  datatype Widget =
    | ScorePanel(stage: int)
    | PackagesLabel(labelId: nat)
    | NextButton
    | HeartsPanel(hearts: int)
    | Dialogue(lines: seq<string>)

  datatype Node = FenceNode(fence: Fence) | ObstacleNode(obstacle: Obstacle) | Ui(widget: Widget)

  type Scene = seq<Node>

  /** Obstacle7, Obstacle8 and Obstacle9 (indices 6..8) are the good "package" pictures. */
  predicate IsGoodImage(image: nat) {
    6 <= image <= 8
  }

  predicate IsGood(o: Obstacle) {
    IsGoodImage(o.image)
  }

  function ObstacleBox(o: Obstacle): Box {
    Box(o.x, o.y, o.w, o.h)
  }

  predicate IsGoodNode(n: Node) {
    n.ObstacleNode? && IsGood(n.obstacle)
  }

  /** The nodes of `s` for which `keep` holds, in their original order. */
  function Keep(s: Scene, keep: Node -> bool): (r: Scene)
    ensures |r| <= |s|
    ensures forall n :: n in r <==> n in s && keep(n)
  {
    if s == [] then [] else (if keep(s[0]) then [s[0]] else []) + Keep(s[1..], keep)
  }

  /** The number of nodes of `s` for which `p` holds. */
  function Count(s: Scene, p: Node -> bool): (r: nat)
    ensures r <= |s|
  {
    if s == [] then 0 else (if p(s[0]) then 1 else 0) + Count(s[1..], p)
  }

  /** Filtering distributes over concatenation, so it never reorders what it keeps. */
  lemma {:induction false} KeepConcat(a: Scene, b: Scene, keep: Node -> bool)
    ensures Keep(a + b, keep) == Keep(a, keep) + Keep(b, keep)
  {
    if a == [] {
      assert a + b == b;
    } else {
      assert (a + b)[1..] == a[1..] + b;
      KeepConcat(a[1..], b, keep);
    }
  }

  /** A scene all of whose nodes are kept is left as it is. */
  lemma {:induction false} KeepAll(s: Scene, keep: Node -> bool)
    requires forall i :: 0 <= i < |s| ==> keep(s[i])
    ensures Keep(s, keep) == s
  {
    if s != [] {
      KeepAll(s[1..], keep);
    }
  }

  /** Filtering twice by the same test is filtering once. */
  lemma KeepIdempotent(s: Scene, keep: Node -> bool)
    ensures Keep(Keep(s, keep), keep) == Keep(s, keep)
  {
    var r := Keep(s, keep);
    forall i | 0 <= i < |r|
      ensures keep(r[i])
    {
      assert r[i] in r;
    }
    KeepAll(r, keep);
  }

  /** Two scenes that agree position by position on p hold equally many p-nodes. */
  lemma {:induction false} CountPointwise(s: Scene, t: Scene, p: Node -> bool)
    requires |s| == |t|
    requires forall i :: 0 <= i < |s| ==> (p(t[i]) <==> p(s[i]))
    ensures Count(t, p) == Count(s, p)
  {
    if s != [] {
      CountPointwise(s[1..], t[1..], p);
    }
  }

  /** Counting over a concatenation adds up. */
  lemma {:induction false} CountConcat(a: Scene, b: Scene, p: Node -> bool)
    ensures Count(a + b, p) == Count(a, p) + Count(b, p)
  {
    if a == [] {
      assert a + b == b;
    } else {
      assert (a + b)[1..] == a[1..] + b;
      CountConcat(a[1..], b, p);
    }
  }

  /** Filtering never adds nodes of any kind. */
  lemma {:induction false} CountKeep(s: Scene, keep: Node -> bool, p: Node -> bool)
    ensures Count(Keep(s, keep), p) <= Count(s, p)
  {
    if s != [] {
      CountKeep(s[1..], keep, p);
      var head: Scene := [s[0]];
      CountConcat(if keep(s[0]) then head else [], Keep(s[1..], keep), p);
    }
  }

  /** Filtering out a node that `p` holds of lowers the count of `p` by at least one. */
  lemma {:induction false} CountKeepDrops(s: Scene, keep: Node -> bool, p: Node -> bool, i: nat)
    requires i < |s| && p(s[i]) && !keep(s[i])
    ensures Count(Keep(s, keep), p) + 1 <= Count(s, p)
  {
    var head: Scene := [s[0]];
    CountConcat(if keep(s[0]) then head else [], Keep(s[1..], keep), p);
    if i == 0 {
      CountKeep(s[1..], keep, p);
    } else {
      CountKeepDrops(s[1..], keep, p, i - 1);
    }
  }

  /** Replacing a node by one of the same standing under `p` keeps the count. */
  lemma {:induction false} CountUpdate(s: Scene, i: nat, n: Node, p: Node -> bool)
    requires i < |s| && p(n) == p(s[i])
    ensures Count(s[i := n], p) == Count(s, p)
  {
    if i > 0 {
      assert s[i := n][1..] == s[1..][i - 1 := n];
      CountUpdate(s[1..], i - 1, n, p);
    }
  }

  /** No node of `s` satisfies `p` exactly when the count is zero. */
  lemma {:induction false} CountZero(s: Scene, p: Node -> bool)
    ensures Count(s, p) == 0 <==> forall i :: 0 <= i < |s| ==> !p(s[i])
  {
    if s != [] {
      CountZero(s[1..], p);
      assert forall i :: 1 <= i < |s| ==> s[i] == s[1..][i - 1];
    }
  }

  /** A count is the whole length exactly when every node passes the test. */
  lemma {:induction false} CountAll(s: Scene, p: Node -> bool)
    ensures Count(s, p) == |s| <==> forall i :: 0 <= i < |s| ==> p(s[i])
  {
    if s != [] {
      CountAll(s[1..], p);
      assert forall i :: 1 <= i < |s| ==> s[i] == s[1..][i - 1];
    }
  }

  /** Overwriting a dropped node by another dropped node leaves the filtered scene unchanged. */
  lemma {:induction false} KeepOverwrite(s: Scene, i: nat, n: Node, keep: Node -> bool)
    requires i < |s| && !keep(s[i]) && !keep(n)
    ensures Keep(s[i := n], keep) == Keep(s, keep)
  {
    if i > 0 {
      assert s[i := n][1..] == s[1..][i - 1 := n];
      KeepOverwrite(s[1..], i - 1, n, keep);
    } else {
      assert s[i := n][1..] == s[1..];
    }
  }


  /** Counting over four consecutive parts adds up part by part. */
  lemma CountFour(a: Scene, b: Scene, c: Scene, d: Scene, p: Node -> bool)
    ensures Count(a + b + c + d, p) == Count(a, p) + Count(b, p) + Count(c, p) + Count(d, p)
  {
    CountConcat(a, b, p);
    CountConcat(a + b, c, p);
    CountConcat(a + b + c, d, p);
  }

}
